=== FILE: README.md ===
# Pecuaria admin console — a Dafny model of its session, access control and form logic

The console is an Angular front end for a livestock business. Staff log in,
record incoming livestock movements against merchants, maintain the
merchant list, and change their password. Administrators also manage the
user accounts. This project models the parts of it that hold deterministic
logic, as immutable state and pure transition functions, and proves what
they guarantee:

- **Session** (`AuthService`, auth_service.dfy). `localStorage` is a
  `map<string, string>` holding `token`, `user` and `token_expiry`. The
  `BehaviorSubject` of the current user is the current value plus the log of
  everything it published. The module models:
  - login, logout and token refresh;
  - the expiry check, `isAuthenticated` and `hasRole`;
  - the restore on page load;
  - the error classifier, and the rule that clears the session on 401/403;
  - the ordered probe of four password-change endpoints, each tried twice.
- **Access control**:
  - `RoleGuard` (role_guard.dfy);
  - the bearer-token interceptor (token_interceptor.dfy);
  - the route table, with the navigation decision it yields together with
    the guards (app_routes.dfy).
- **Screens**:
  - the movement form (movement_form.dfy): merchant search, name
    normalisation, the line-item total and the submit gate;
  - user administration (user_management.dfy);
  - account settings (settings.dfy);
  - the merchant list (merchant_list.dfy);
  - the profile's role label (profile.dfy).
- **Shared modules**:
  - common.dfy: optional values, call outcomes, JavaScript truthiness and
    HTTP errors;
  - text.dfy: the JavaScript string operations the code relies on (`trim`,
    ASCII `toLowerCase`, `includes`, `split(' ')`, `join(' ')` and `.length`
    in UTF-16 code units);
  - decimal.dfy: integer to text and back;
  - auth_model.dfy: the user record, whose role is the string the server
    sent (nothing checks that it is `admin` or `personal`), and a reversible
    text encoding standing in for `JSON.stringify` and `JSON.parse`.

What the model cannot see is passed in as a parameter:

- every HTTP answer, as an `Outcome` (`Ok(value)` or `Err(HttpError(status, body))`);
- the clock, as `now`, in milliseconds;
- the token decoder (`atob` then `JSON.parse`), as `decode`, which yields
  `Undecodable`, or the number JavaScript converts the `exp` claim to, or no
  number when `payload.exp * 1000` is `NaN`;
- `environment.apiUrl`, as `apiUrl`;
- Angular's e-mail validator, as `isEmail`;
- `AuthGuard`, whose source is not part of this model, as two booleans: whether it passes, and whether it answers while being subscribed.

Every screen transition returns the new state and the list of service
calls it made.

Two behaviours of the code are easy to miss:

- **Failed login.** `login` runs through `handleError`, so a 401 or 403
  answer clears the stored session.
- **Clearing an anonymous session.** `clearAuthData` publishes `null` again,
  so the storage and the user are unchanged but the log grows
  (`AuthService.ClearIdempotent`).

## Model

| member | source | states |
|---|---|---|
| AuthService.IsTokenExpiringSoon | src/app/core/services/auth.service.ts:133-146 | a token is not expiring exactly when one is stored, it decodes, its `exp` gives a numeric product, and `exp*1000 - now >= 300*1000`; every other case counts as expiring |
| AuthService.IsTokenExpiringSoonAsWritten | src/app/core/services/auth.service.ts:133-146 | as the code computes it: no token or an undecodable one is expiring, a payload with an `exp` whose product `payload.exp * 1000` is `NaN` (absent, a non-numeric string, an object) is not expiring, otherwise the 300 s buffer rule |
| AuthService.MissingExpNeverExpiresAsWritten | src/app/core/services/auth.service.ts:138-142 | as written, a token with an `exp` whose product `payload.exp * 1000` is `NaN` (absent, a non-numeric string, an object) is never expiring, at any clock value |
| AuthService.ExpiringSoonAgreesWhenExpPresent | src/app/core/services/auth.service.ts:133-146 | the corrected and the as-written check agree on every session except a decodable token with an `exp` whose product `payload.exp * 1000` is `NaN` (absent, a non-numeric string, an object) |
| AuthService.ExpiryBoundary | src/app/core/services/auth.service.ts:139-142 | with exactly 300 s left the token is not expiring; one millisecond later it is |
| AuthService.ExpiringSoonMonotone | src/app/core/services/auth.service.ts:139-142 | once expiring, a token stays expiring as the clock advances |
| AuthService.IsAuthenticated | src/app/core/services/auth.service.ts:176-187 | on the corrected expiry check: authenticated iff a non-empty token is stored, its claims decode with an `exp` whose product is a number leaving at least 300 s, and a user is published |
| AuthService.IsAuthenticatedAsWritten | src/app/core/services/auth.service.ts:176-187 | as the code computes it: a token with an `exp` whose product `payload.exp * 1000` is `NaN` (absent, a non-numeric string, an object) also counts, at any time, when a user is published |
| AuthService.MissingExpAuthenticatesAsWritten | src/app/core/services/auth.service.ts:181-184 | the corrected reading never admits a session the code as written refuses, and the two differ exactly on a stored token with an `exp` whose product `payload.exp * 1000` is `NaN` (absent, a non-numeric string, an object) and a user published |
| AuthService.HasRole | src/app/core/services/auth.service.ts:192-195 | false with no user; otherwise true iff the user's role string equals the argument |
| AuthService.HasRoleExactlyOne | src/app/core/services/auth.service.ts:192-195 | a published user answers to its own role string and to no other; it answers to exactly one of `admin` and `personal` iff its role is one of them, so a role the server made up answers to neither |
| AuthService.SetAuthData | src/app/core/services/auth.service.ts:226-237 | stores the token and a user text that decodes back to the user, writes `token_expiry` = `now + expiresIn*1000` (read back as that number) only when `expiresIn` is truthy and otherwise leaves it, touches no other entry, and publishes the user |
| AuthService.ClearAuthData | src/app/core/services/auth.service.ts:239-244 | removes the three session entries, leaves every other entry, and publishes `null` |
| AuthService.ClearIdempotent | src/app/core/services/auth.service.ts:239-244 | clearing twice leaves the same storage and user as clearing once |
| AuthService.UpdateCurrentUser | src/app/core/services/auth.service.ts:246-249 | rewrites the stored user so that it decodes to the new user, keeps token and expiry, and publishes the user |
| AuthService.LoadUserFromStorage | src/app/core/services/auth.service.ts:251-259 | with a truthy token and user text it publishes the decoded user (or fails where the text does not parse); otherwise it changes nothing; it never writes storage |
| AuthService.ReloadRestoresUser | src/app/core/services/auth.service.ts:54-56 | after a login, a page reload publishes the same user again |
| AuthService.ReloadAfterClearIsAnonymous | src/app/core/services/auth.service.ts:54-56 | after a clear, a page reload starts with no user |
| AuthService.GetAuthHeaders | src/app/core/services/auth.service.ts:261-272 | always the JSON content type; an `Authorization: Bearer <token>` header iff a non-empty token is stored |
| AuthService.Logout | src/app/core/services/auth.service.ts:74-87 | posts to `<apiUrl>/auth/logout` with the bearer header, and ends in the cleared session with `null` published |
| AuthService.LogoutIgnoresBackend | src/app/core/services/auth.service.ts:74-87 | the state after logout is the same whatever the backend answered |
| AuthService.GetErrorMessage | src/app/core/services/auth.service.ts:301-332 | a client-side error gives `Error del cliente: <message>`; 0, 401, 403, 404, 409, 422, 429, 500 and 503 give fixed texts; 400 and unmapped statuses prefer the server's message and fall back to `Solicitud inválida.` or `Error inesperado: <status>`; never empty |
| AuthService.FixedTextIgnoresBody | src/app/core/services/auth.service.ts:307-327 | for the fixed-text statuses the message does not depend on the server's body |
| AuthService.HandleError | src/app/core/services/auth.service.ts:277-295 | the rethrown error carries the original status, the body and the friendly message; the session is cleared exactly on 401 and 403 and is otherwise untouched |
| AuthService.Login | src/app/core/services/auth.service.ts:61-69 | success stores the session and passes the response on; failure surfaces an `ApiError` with the original status and clears the session exactly on 401/403 |
| AuthService.LoginAuthenticates | src/app/core/services/auth.service.ts:61-69 | a successful login with a token good for at least the buffer leaves the session authenticated, under both readings of the expiry check |
| AuthService.ClearedIsAnonymous | src/app/core/services/auth.service.ts:176-195 | after any clear the session is authenticated under neither reading and holds no role |
| AuthService.RefreshToken | src/app/core/services/auth.service.ts:151-164 | success stores the new session; failure clears the session and passes on the original error unchanged |
| AuthService.ChangePasswordEndpoints | src/app/core/services/auth.service.ts:92-97 | four URLs, each `apiUrl` followed by `/auth/change-password`, `/auth/update-password`, `/auth/password` and `/users/change-password` in that order, all four different |
| AuthService.TryEndpoint | src/app/core/services/auth.service.ts:100-113 | one endpoint is tried once and, only if that fails, once more (`retry(1)`); the result is the last attempt's answer |
| AuthService.ProbeFrom | src/app/core/services/auth.service.ts:116-119 | the attempts follow the declared order, at most two per endpoint, stopping at the first success |
| AuthService.AllFailTriesEverything | src/app/core/services/auth.service.ts:107-120 | when everything fails, exactly eight attempts are made, and the last one's error is the one reported |
| AuthService.FailedProbeTriesEverything | src/app/core/services/auth.service.ts:116-119 | a probe that ends in failure has made every attempt of the schedule: each endpoint, then its retry, in order |
| AuthService.PostedUrls | src/app/core/services/auth.service.ts:100-104 | each attempt posts to the endpoint URL its index names |
| AuthService.ChangePassword | src/app/core/services/auth.service.ts:92-127 | follows the probe schedule; success replaces the cached user only when the response carries one; only the last endpoint's failure reaches `handleError`, with its status, and it clears the session on 401/403 |
| AuthService.ChangePasswordPostsInOrder | src/app/core/services/auth.service.ts:92-120 | the first request goes to `<apiUrl>/auth/change-password`; a change that fails has posted to each of the four URLs twice, in the declared order |
| AuthModel.UserRoundTrip | src/app/core/services/auth.service.ts:228 | the stored text of a user reads back as the same user |
| Decimal.IntRoundTrip | src/app/core/services/auth.service.ts:232-233 | the decimal text of an integer (`toString()`) parses back to that integer |
| Text.JsLength | src/app/modules/admin/user-management.component.ts:91 | `.length` counts UTF-16 code units: between the number of characters and twice that, and zero only for the empty text |
| Text.JsLengthConcat | src/app/modules/admin/user-management.component.ts:91 | code units add up over a concatenation |
| Text.BmpLengthIsSize | src/app/modules/admin/user-management.component.ts:91 | a text without characters beyond U+FFFF has as many code units as characters |
| Text.ThreeEmojiAreSixUnits | src/app/modules/auth/settings/settings.component.ts:805 | three emoji count as six, so they meet a minimum length of 6 |
| RoleGuard.CanActivate | src/app/core/guards/role.guard.ts:12-28 | allows iff a user is present and the route declares no roles or lists the user's role; allowing navigates nowhere; refusing navigates to `/login` with no user and to `/unauthorized` otherwise |
| RoleGuard.DecisionIgnoresToken | src/app/core/guards/role.guard.ts:13-14 | two sessions with the same user get the same decision, whatever their tokens |
| RoleGuard.SingleRoleMatchesHasRole | src/app/core/guards/role.guard.ts:21 | with one required role, the guard allows exactly when `hasRole` holds for it |
| RoleGuard.EmptyRolesRefuseEveryone | src/app/core/guards/role.guard.ts:21 | an empty (but present) role list lets nobody in |
| TokenInterceptor.Intercept | src/app/core/interceptors/token.interceptor.ts:12-23 | forwards exactly one request with the same URL; it adds `Authorization: Bearer <token>` when the token is non-empty and the URL contains `/api/`, and otherwise forwards the request unchanged |
| TokenInterceptor.AttachIff | src/app/core/interceptors/token.interceptor.ts:12 | the header is added iff a token is stored and `/api/` occurs at some offset of the URL, with the value `getAuthHeaders` would build |
| TokenInterceptor.AbsoluteApiUrlGetsToken | src/app/core/interceptors/token.interceptor.ts:12 | the test is a substring test: an absolute URL to the API gets the token |
| TokenInterceptor.AssetRequestUnchanged | src/app/core/interceptors/token.interceptor.ts:12-23 | a static asset request passes unchanged even with a token |
| Text.ContainsIff | src/app/core/interceptors/token.interceptor.ts:12 | the recursive `includes` holds iff the needle occurs at some offset |
| AppRoutes.PathsDistinctWildcardLast | src/app/app.routes.ts:5-82 | no path is declared twice, and the wildcard redirect to `/login` is the last entry |
| AppRoutes.DeclaredPathResolvesToItself | src/app/app.routes.ts:5-82 | every declared path is matched by its own entry |
| AppRoutes.ResolveIsPage | src/app/app.routes.ts:6 | every URL ends on a screen: no redirect leads to another redirect |
| AppRoutes.AuthOnlyScreens | src/app/app.routes.ts:15-53 | `dashboard`, `merchants`, `movements`, `profile` and `settings` carry `AuthGuard` only and no roles |
| AppRoutes.AdminScreens | src/app/app.routes.ts:55-71 | `admin/users` and `statistics` carry `AuthGuard` then `RoleGuard`, with roles `['admin']` |
| AppRoutes.AdminScreensRefusePersonal | src/app/app.routes.ts:55-71 | a user whose role is not `admin` is sent to `/unauthorized` from both admin screens unless `AuthGuard` refuses on the spot, in which case `RoleGuard` never runs and no navigation of the model's guards starts; an admin gets in exactly when `AuthGuard` passes, and otherwise no such navigation starts |
| AppRoutes.AdminScreensWithoutUserGoToLogin | src/app/app.routes.ts:55-71 | with no user, both admin screens start the navigation to `/login` unless `AuthGuard` refuses on the spot, which keeps `RoleGuard` from running |
| AppRoutes.PublicScreensOpen | src/app/app.routes.ts:9-13 | `login` and `unauthorized` render for anyone |
| AppRoutes.UnknownPathsGoToLogin | src/app/app.routes.ts:81 | the empty path and every undeclared path end on the login screen |
| AppRoutes.GuardedScreensNeedAuthGuard | src/app/app.routes.ts:15-71 | a screen that lists `AuthGuard` does not render when `AuthGuard` refuses; the five ordinary screens then start no navigation of the model's guards |
| AppRoutes.RunGuards | src/app/app.routes.ts:55-71 | the screen renders iff every guard of the route allows; otherwise it reports the navigations of the guards that ran, which are those up to the first refusal given on the spot |
| AppRoutes.GuardNavigation | src/app/core/guards/role.guard.ts:16-27 | `RoleGuard` starts no navigation when it allows, and `/login` (no user) or `/unauthorized` when it refuses |
| AppRoutes.AllAllow | src/app/app.routes.ts:55-71 | true iff every guard of the array allows |
| AppRoutes.Navigations | src/app/app.routes.ts:55-71 | no more navigations than guards, none without `RoleGuard` and none when a leading `AuthGuard` refuses on the spot, each `/login` without a user and `/unauthorized` with one |
| MovementForm.FilterMerchants | src/app/modules/movements/movement-form.component.ts:133-150 | an empty term gives `[]`; otherwise an order-preserving sublist in which every merchant whose lower-cased name (or `first last`) or DNI contains the lower-cased, trimmed term occurs as often as in the list, and no other merchant occurs |
| MovementForm.KeepMatching | src/app/modules/movements/movement-form.component.ts:140-149 | the kept merchants are a subsequence in which each matching merchant occurs as often as in the list and no other merchant occurs |
| MovementForm.BlankTermKeepsAll | src/app/modules/movements/movement-form.component.ts:139 | a term of spaces trims to empty, which every merchant contains, so it keeps the whole list |
| MovementForm.PrefillNewMerchant | src/app/modules/movements/movement-form.component.ts:152-167 | with a space inside the trimmed term, first name + `' '` + last name rebuild the trimmed term and the last name is its last word; otherwise the untrimmed term is the first name and the last name is empty; the DNI is overwritten only by an eight-digit term |
| MovementForm.OnSearchInput | src/app/modules/movements/movement-form.component.ts:84-90 | every value refilters; the draft is prefilled only when a non-empty term finds nothing |
| MovementForm.SelectDefaultMerchant | src/app/modules/movements/movement-form.component.ts:113-131 | selects the first merchant with id 1, else the first merchant, else changes nothing; whenever merchants are loaded, `merchant_id` is set, the search cleared and the dropdown and the form hidden |
| MovementForm.DefaultSelectionIsLoaded | src/app/modules/movements/movement-form.component.ts:113-131 | with merchants loaded, one of them is always selected, with its id in `merchant_id` |
| MovementForm.SelectMerchant | src/app/modules/movements/movement-form.component.ts:226-232 | the merchant selected, its id in `merchant_id`, the search cleared, dropdown and form hidden, nothing else touched |
| MovementForm.SelectShowsName | src/app/modules/movements/movement-form.component.ts:226-232 | after selecting a listed merchant whose id no earlier merchant shares, the movement list shows its display name for `merchant_id` |
| MovementForm.ClearUndoesSelect | src/app/modules/movements/movement-form.component.ts:226-237 | clearing after a selection leaves no merchant and no `merchant_id`, as clearing alone does, and the list shows `Sin asignar` |
| MovementForm.ClearMerchant | src/app/modules/movements/movement-form.component.ts:234-237 | no merchant selected and `merchant_id` empty, nothing else touched |
| MovementForm.FindById | src/app/modules/movements/movement-form.component.ts:115 | the first index holding the id, or none when no merchant has it |
| MovementForm.SumConcat | src/app/modules/movements/movement-form.component.ts:273-278 | the sum of subtotals over two runs of items adds up |
| MovementForm.AddItem | src/app/modules/movements/movement-form.component.ts:246-258 | appends an item with quantity 1, price 0 and subtotal 0; the total stays the sum of subtotals and does not move |
| MovementForm.RemoveItem | src/app/modules/movements/movement-form.component.ts:260-263 | drops exactly the item at the index (none past the end); the total stays the sum and loses exactly that subtotal |
| MovementForm.UpdateSubtotal | src/app/modules/movements/movement-form.component.ts:265-271 | that item's subtotal becomes quantity times price, with a missing value counting as 0; no other item changes; the total stays the sum and moves by the change in that subtotal |
| MovementForm.Submit | src/app/modules/movements/movement-form.component.ts:280-310 | refused, with the error set, the success cleared and no call, unless the items are valid, there is one or more, and a merchant is selected; otherwise exactly one `createMovement` with the form and the total; success shows the reply's message or the default, resets and reloads; failure shows the fixed error; the loader ends off |
| MovementForm.ResetForm | src/app/modules/movements/movement-form.component.ts:312-321 | no items, total 0, the default merchant selected again, search cleared, form hidden, draft emptied |
| MovementForm.ResetFormFields | src/app/modules/movements/movement-form.component.ts:221-224 | an empty draft and no merchant being edited, nothing else touched |
| MovementForm.ToggleForm | src/app/modules/movements/movement-form.component.ts:170-176 | flips the form and hides the dropdown; opening it outside edit mode empties the draft |
| MovementForm.SaveMerchant | src/app/modules/movements/movement-form.component.ts:179-218 | an incomplete draft sets the validation message and makes no call; otherwise one `addMerchant`; success appends and selects the normalised merchant and closes the form; failure shows the server's message or the default |
| MovementForm.SaveMerchantAsWritten | src/app/modules/movements/movement-form.component.ts:197-205 | as written, a successful creation leaves the form open (and the draft emptied outside edit mode) |
| MovementForm.SaveMerchantReopensFormAsWritten | src/app/modules/movements/movement-form.component.ts:200-203 | both versions make the same call and keep the same merchants and selection; only the version as written leaves the form open |
| MovementForm.NormalizeMerchant | src/app/modules/movements/movement-form.component.ts:323-348 | keeps a truthy name; otherwise fills it with the trimmed `first last`, else `DNI <dni>`, else `Comerciante <id>`; the id, DNI and phone are untouched, and unless the name is split the first and last name read the same as before |
| MovementForm.NormalizeSplitsFullName | src/app/modules/movements/movement-form.component.ts:327-331 | a full name holding a space splits into a first and a last name that join back to the trimmed name |
| MovementForm.DisplayName | src/app/modules/movements/movement-form.component.ts:365-371 | a name with visible text, else the trimmed `first last`, else the identifier; never empty |
| MovementForm.GetMerchantName | src/app/modules/movements/movement-form.component.ts:361-372 | `Sin asignar` when no merchant has the id, otherwise the display name of the first merchant that has it |
| MovementForm.NormalizeKeepsDisplayName | src/app/modules/movements/movement-form.component.ts:323-372 | normalising a merchant never changes the name the list shows for it |
| MovementForm.NormalizeFillsDisplay | src/app/modules/movements/movement-form.component.ts:323-372 | for a merchant without a name, the name filled in by normalisation is exactly what the list showed before (the trimmed first and last name, or the DNI or id label) |
| Text.JoinSplit | src/app/modules/movements/movement-form.component.ts:154-156 | joining the space-split parts with `' '` gives back the text |
| UserManagement.CountRole | src/app/modules/admin/user-management.component.ts:67-73 | at most the list's length; zero iff nobody has the role; the full length iff everybody has it |
| UserManagement.CountsPartition | src/app/modules/admin/user-management.component.ts:67-73 | over any list, the two counts add up to at most its length, and to its length exactly when no role other than `admin` and `personal` occurs |
| UserManagement.AdminPlusPersonalIsAll | src/app/modules/admin/user-management.component.ts:67-73 | the admin count plus the personal count never exceeds the number of users, and equals it exactly when every user's role is `admin` or `personal` |
| UserManagement.Init | src/app/modules/admin/user-management.component.ts:35-38 | takes the current user, and loads the users iff it is an administrator |
| UserManagement.UsersLoaded | src/app/modules/admin/user-management.component.ts:52-65 | success replaces the list; failure keeps it and shows the fixed error; the loader ends off |
| UserManagement.UpdatePayload | src/app/modules/admin/user-management.component.ts:85-91 | e-mail and role always; the password only when it is at least 6 UTF-16 code units long |
| UserManagement.ValidFormSendsTypedPassword | src/app/modules/admin/user-management.component.ts:85-91 | on a valid form, the password goes into the update exactly when one was typed |
| UserManagement.SubmitCall | src/app/modules/admin/user-management.component.ts:80-81 | an update of the edited id when editing with a truthy id, otherwise a create with the form values |
| UserManagement.OnSubmit | src/app/modules/admin/user-management.component.ts:75-126 | an invalid form only marks the controls touched and calls nothing; a valid one makes one update or create; success shows `Usuario <email> creado/actualizado exitosamente`, resets and reloads; failure shows the server's message or `Error al crear/actualizar el usuario` and keeps the form |
| UserManagement.OnSubmitAsWritten | src/app/modules/admin/user-management.component.ts:112-117 | as written, after a successful save no success message remains |
| UserManagement.SubmitAsWrittenDropsMessage | src/app/modules/admin/user-management.component.ts:112-117 | the two versions differ only in the success message, which the version as written loses |
| UserManagement.EditingIdZeroCreates | src/app/modules/admin/user-management.component.ts:80 | editing the user with id 0 turns the submit into a create |
| UserManagement.OnEditUser | src/app/modules/admin/user-management.component.ts:128-134 | edit mode on the user's id, its e-mail and role in the form, the password empty, `Editando usuario: <email>` shown, no error |
| UserManagement.EditThenSubmitUpdates | src/app/modules/admin/user-management.component.ts:80-134 | editing a user with a non-zero id, a well-formed e-mail and a non-empty role, then submitting, updates that id with its e-mail and role and no password |
| UserManagement.RemoveById | src/app/modules/admin/user-management.component.ts:140 | keeps the other users in order, each as often as in the list, and no user with that id |
| UserManagement.RemoveByIdIdempotent | src/app/modules/admin/user-management.component.ts:140 | removing the same id twice removes nothing more |
| UserManagement.OnDeleteUser | src/app/modules/admin/user-management.component.ts:136-148 | nothing without confirmation; otherwise one delete, then the users with that id are removed, or the server's message or the default is shown |
| UserManagement.ResetForm | src/app/modules/admin/user-management.component.ts:150-156 | empty form, not editing, no id, both messages empty; users untouched |
| Settings.MismatchNeedsTwoDifferentValues | src/app/modules/auth/settings/settings.component.ts:815-834 | the validators report nothing while either field is empty or the two agree, and do not depend on which field is which |
| Settings.ValidPasswordFormConfirms | src/app/modules/auth/settings/settings.component.ts:803-834 | a valid password form has a current password and a confirmation equal to a new password of at least 6 UTF-16 code units |
| Settings.ValidEmailFormConfirms | src/app/modules/auth/settings/settings.component.ts:798-823 | a valid e-mail form holds the same well-formed address twice |
| Settings.Init | src/app/modules/auth/settings/settings.component.ts:810-812 | takes the auth service's current user, with empty forms and a closed debug panel |
| Settings.ToggleDebug | src/app/modules/auth/settings/settings.component.ts:836-841 | flips the panel, empties its text when it closes, and changes nothing else |
| Settings.ToggleDebugTwice | src/app/modules/auth/settings/settings.component.ts:836-841 | toggling twice restores the panel's visibility; only its text may be lost |
| Settings.ChangeErrorMessage | src/app/modules/auth/settings/settings.component.ts:898-911 | 404, 401, 500 and 0 give fixed texts; 400 and any other status prefer the server's message over `Datos inválidos enviados al servidor.` or `Error desconocido al cambiar la contraseña.`; never empty |
| Settings.ChangeErrorMessageAsWritten | src/app/modules/auth/settings/settings.component.ts:898-911 | as written, 400 and other statuses always give the default text |
| Settings.ServerMessageLostAsWritten | src/app/modules/auth/settings/settings.component.ts:898-911 | the two agree on the fixed statuses, and elsewhere differ exactly when the server sent a message other than the default |
| Settings.StartChange | src/app/modules/auth/settings/settings.component.ts:857-872 | loader on and all three messages cleared, with the request dump shown only when the panel is open |
| Settings.OnChangePassword | src/app/modules/auth/settings/settings.component.ts:855-919 | an invalid form only marks the controls touched and calls nothing; a valid one runs the service's change; success shows the response's message or the default, empties the form and the debug text and marks the controls untouched; failure shows the status's message, keeps the form as it was and appends the error dump to an open panel; the loader ends off; the session is what the service left |
| Settings.OnChangePasswordAsWritten | src/app/modules/auth/settings/settings.component.ts:855-919 | as written, success clears the error, empties the form and marks it untouched, while a failure with a status outside 404/401/500/0 only ever shows one of the two default texts |
| Settings.BadRequestMessageAsWritten | src/app/modules/auth/settings/settings.component.ts:903-904 | when every endpoint answers 400 with a server message, the version as written shows `Datos inválidos enviados al servidor.` and the corrected one shows the server's message |
| Settings.UnauthorizedChangeLogsOut | src/app/modules/auth/settings/settings.component.ts:901-902 | a 401 from the last endpoint clears the session and reports a wrong current password |
| Settings.ResetForms | src/app/modules/auth/settings/settings.component.ts:921-927 | both forms empty and the success, error and debug texts cleared, the controls untouched, and the debug panel, user and loader as they were |
| Settings.ResetFormsSettles | src/app/modules/auth/settings/settings.component.ts:921-927 | a second reset changes nothing, a reset keeps the toggled debug panel, and submitting a reset password form only marks it touched |
| MerchantList.ToggleForm | src/app/modules/merchants/merchant-list.component.ts:29-34 | flips the form; opening it outside edit mode empties the draft; otherwise nothing else changes |
| MerchantList.ToggleTwice | src/app/modules/merchants/merchant-list.component.ts:29-34 | closing and reopening keeps an edit in progress, and outside edit mode starts from an empty draft |
| MerchantList.EditMerchant | src/app/modules/merchants/merchant-list.component.ts:75-79 | edit mode on the merchant's id, its fields in the draft, the form shown |
| MerchantList.MerchantsLoaded | src/app/modules/merchants/merchant-list.component.ts:37-49 | success replaces the list; failure keeps it and shows the fixed error; the loader ends off |
| MerchantList.SaveMerchant | src/app/modules/merchants/merchant-list.component.ts:52-93 | an incomplete draft sets the validation message and calls nothing; otherwise one update when the edited id is truthy, else one add; success sets the confirmation, leaves edit mode with an empty draft and reloads; failure shows the server's message or the default |
| MerchantList.EditThenSaveUpdates | src/app/modules/merchants/merchant-list.component.ts:58-79 | editing a merchant with a non-zero id and saving updates that merchant |
| MerchantList.EditIdZeroAdds | src/app/modules/merchants/merchant-list.component.ts:58 | saving the edit of the merchant with id 0 adds a new merchant instead |
| MerchantList.SaveSuccessLeavesEditMode | src/app/modules/merchants/merchant-list.component.ts:62-87 | after a successful save the next save of a new draft adds |
| MerchantList.ResetFormFields | src/app/modules/merchants/merchant-list.component.ts:111-114 | an empty draft and no merchant being edited, nothing else touched |
| MerchantList.DeleteMerchant | src/app/modules/merchants/merchant-list.component.ts:96-108 | nothing without confirmation; otherwise one delete, then a reload or the server's message or the default |
| MerchantList.DeleteThenReload | src/app/modules/merchants/merchant-list.component.ts:96-108 | a confirmed, successful delete is followed by exactly one reload, and the confirmation survives that reload's answer; an unconfirmed delete changes nothing and calls nothing |
| Profile.Init | src/app/modules/auth/profile/profile.component.ts:20-22 | the screen shows exactly the auth service's current user |
| Profile.RoleDisplayName | src/app/modules/auth/profile/profile.component.ts:24-26 | `Administrador` for an admin; `Personal` for every other role, including one the server made up, and when there is no user |
| Profile.LabelAgreesWithHasRole | src/app/modules/auth/profile/profile.component.ts:24-26 | the label names an administrator exactly when the service reports the `admin` role |

## Left out

- HTTP transport. Every service call is the outcome it delivered, and the
  user, merchant, movement, report and dashboard services are not modelled
  beyond that. The `date` field of a movement payload (`new Date()`) and the
  `timestamp` of an `ApiError` are omitted: both come from the clock.
- `AuthGuard` is not part of this model; it is two booleans in `AppRoutes.Navigate`: its verdict and whether it gives that verdict while being subscribed.
- AppRoutes.RunGuards: the navigations it reports are `RoleGuard`'s only; whatever `AuthGuard` starts when it refuses is not known, and which of several competing navigations the router finally completes is not modelled. The order in which the router subscribes to the guards and stops at the first refusal given on the spot is the Angular router's own behaviour, stated here rather than derived from its code.
- JSON. `JSON.stringify` and `JSON.parse` of the stored user are replaced by
  a reversible field encoding (`AuthModel.EncodeUser`), so malformed stored
  text is whatever that decoder refuses. The JSON dumps shown in the settings
  debug panel are the parameters `sentReport` and `errorReport`.
- Token decoding (`atob`, `JSON.parse` and the `exp` claim) is the
  parameter `decode`. An `exp` whose product `payload.exp * 1000` is `NaN`
  (absent, a non-numeric string, an object) is `Decoded(None)`; any other
  `exp` is the number JavaScript converts it to, so `null`, `""` and `false`
  give 0 and such a token is expiring.
- Fractional expiry: the `exp` a decoded payload carries is an `int`, so an
  `exp` with a fraction of a second is not modelled.
- `getTokenInfo` and `getCurrentUser` are debug and accessor helpers; the
  model reads `currentUser` directly.
- Timing:
  - rxjs `debounceTime` and `distinctUntilChanged` on the search box;
  - the `setTimeout` that clears a success message after 3 s;
  - `onMerchantBlur`'s delayed hide;
  - the `onChangeEmail` stub, which only waits and sets a message.
- `BehaviorSubject` delivery. Subscribers are not modelled; only the
  sequence of published values is.
- `console` logging, `confirm()` (a boolean parameter) and `toggleExpanded`
  (a display flag on a movement).
- Angular forms: the validators are predicates over the control values; a
  control reset to `null` holds `""`, and an empty number control is `None`.
- Text: `toLowerCase` lowers ASCII letters only; other letters are left as they are. String lengths in the password rules are counted in UTF-16 code units (`Text.JsLength`), as JavaScript counts them.
- Amounts are `real`; the floating-point rounding of JavaScript numbers is not modelled.
- MovementForm.RemoveItem: takes a `nat` index, so `removeAt` with a negative index (counting from the end) is not modelled.
- MovementForm.UpdateSubtotal: requires an index inside the list, since the source throws on a missing item; so `at` with a negative index (counting from the end) is not modelled either. Every caller passes the template's `*ngFor` index.
- MerchantList.DraftOf: keeps only the four form fields of the spread copy `{ ...merchant }`; the other fields it copies are not sent in the model's update call.
- AuthService.LoadUserFromStorage: a stored user text that does not parse is a `MalformedStoredUser` result, where the page would throw during construction.

## Findings

| source | as written | input that shows it | evidently intended | confidence | as-written member | corrected member |
|---|---|---|---|---|---|---|
| src/app/core/services/auth.service.ts:139-142 | `payload.exp * 1000` is `NaN` when `exp` is absent, a non-numeric string or an object, and `NaN < 300000` is false, so the token never counts as expiring | a stored token whose payload is `{}`, at any time | a token without an expiry counts as expiring, like an undecodable one (the `catch` branch) | medium, not executed | AuthService.IsTokenExpiringSoonAsWritten | AuthService.IsTokenExpiringSoon |
| src/app/core/services/auth.service.ts:181-184 | `isAuthenticated` relies on `isTokenExpiringSoon`, so a token with an `exp` whose product `payload.exp * 1000` is `NaN` (absent, a non-numeric string, an object) keeps the session authenticated for ever | a stored token whose payload is `{}`, with a user published, at any time | such a session is not authenticated | medium, not executed | AuthService.IsAuthenticatedAsWritten | AuthService.IsAuthenticated |
| src/app/modules/movements/movement-form.component.ts:200-203 | `selectMerchant` already sets `showForm = false`, so the `toggleForm()` meant to close the form ("Cerrar formulario") opens it again and empties the draft | a complete draft, `editingMerchantId` null, `addMerchant` succeeding | the form is closed after the new merchant is selected | high, not executed | MovementForm.SaveMerchantAsWritten | MovementForm.SaveMerchant |
| src/app/modules/admin/user-management.component.ts:112-116 | `handleSuccess` sets `successMessage` and then calls `resetForm()`, which empties it, so the success text is never shown | a valid create form, `createUser` succeeding | the message `Usuario <email> creado exitosamente` stays visible after the reset | high, not executed | UserManagement.OnSubmitAsWritten | UserManagement.OnSubmit |
| src/app/modules/auth/settings/settings.component.ts:904, 910 | the handler reads `error.error?.message`, but the error it gets is the service's `ApiError`, which keeps the server's body under `details` and has no `error` member, so the server's message is never shown | every endpoint answers 400 with body `{ message: "La contraseña actual es incorrecta" }` | the server's message is shown, read from `details` | medium, not executed | Settings.OnChangePasswordAsWritten | Settings.OnChangePassword |

=== FILE: app_routes.dfy ===
/**
 * The route table of app.routes.ts and the navigation decision it yields
 * together with the guards: a URL path resolves to the first matching
 * entry, a redirect is followed, then the guards of the entry run in
 * declaration order until one refuses on the spot.
 *
 * `AuthGuard` is not part of this model (its source is not available): it
 * is the boolean `authGuardPasses`, with `authGuardSync` telling whether it
 * answers while it is being subscribed or only later.
 */
module AppRoutes {
  import opened Common
  import opened AuthModel
  import RG = RoleGuard

  /** The guards a route can list under `canActivate`. */
  datatype Guard = AuthGuard | RoleGuard

  /** An entry of the table: a redirect, or a screen with its guards and its `data.roles`. */
  datatype Route =
    | Redirect(path: string, redirectTo: string)
    | Page(path: string, guards: seq<Guard>, roles: Option<seq<Role>>)

  /** The path that matches every URL. */
  const Wildcard := "**"

  /** `routes`, in declaration order. */
  const Routes: seq<Route> := [
    Redirect("", "/login"),
    Page("login", [], None),
    Page("dashboard", [AuthGuard], None),
    Page("merchants", [AuthGuard], None),
    Page("movements", [AuthGuard], None),
    Page("profile", [AuthGuard], None),
    Page("settings", [AuthGuard], None),
    Page("admin/users", [AuthGuard, RoleGuard], Some([AdminRole])),
    Page("statistics", [AuthGuard, RoleGuard], Some([AdminRole])),
    Page("unauthorized", [], None),
    Redirect(Wildcard, "/login")
  ]

  /** The screens that need a logged-in user and nothing more. */
  const AuthOnlyPaths: set<string> := {"dashboard", "merchants", "movements", "profile", "settings"}

  /** The screens restricted to administrators. */
  const AdminPaths: set<string> := {"admin/users", "statistics"}

  /** The screens open to everyone. */
  const PublicPaths: set<string> := {"login", "unauthorized"}

  /** An entry matches a URL path (without its leading `/`) when its path is that path or the wildcard. */
  predicate Matches(r: Route, url: string) {
    r.path == Wildcard || r.path == url
  }

  /** The index of the first entry at or after `from` that matches `url`; the wildcard entry ends the search. */
  function FirstMatchFrom(url: string, from: nat): (i: nat)
    requires from < |Routes|
    ensures from <= i < |Routes| && Matches(Routes[i], url)
    ensures forall j :: from <= j < i ==> !Matches(Routes[j], url)
    decreases |Routes| - from
  {
    if from == |Routes| - 1 || Matches(Routes[from], url) then from
    else FirstMatchFrom(url, from + 1)
  }

  /** The entry the router picks for `url`: the first that matches. */
  function FirstMatch(url: string): (i: nat)
    ensures i < |Routes| && Matches(Routes[i], url)
    ensures forall j :: 0 <= j < i ==> !Matches(Routes[j], url)
  {
    FirstMatchFrom(url, 0)
  }

  /** A redirect target without its leading `/`. */
  function StripSlash(target: string): string {
    if |target| > 0 && target[0] == '/' then target[1..] else target
  }

  /** The entry reached after following a redirect, if the first match is one. */
  function Resolve(url: string): Route {
    match Routes[FirstMatch(url)]
    case Redirect(_, to) => Routes[FirstMatch(StripSlash(to))]
    case Page(_, _, _) => Routes[FirstMatch(url)]
  }

  /**
   * The outcome of a navigation: the screen rendered, or a refusal with the
   * navigations the refusing guards started as a side effect, in guard order.
   */
  datatype Navigation = Render(path: string) | Blocked(navigations: seq<string>)

  /** One guard's verdict. */
  predicate GuardAllows(g: Guard, roles: Option<seq<Role>>, user: Option<User>, authGuardPasses: bool) {
    match g
    case AuthGuard => authGuardPasses
    case RoleGuard => RG.CanActivate(user, roles).allow
  }

  /** The navigation a guard starts when it refuses; `AuthGuard`'s is not part of this model. */
  function GuardNavigation(g: Guard, roles: Option<seq<Role>>, user: Option<User>): (r: seq<string>)
    ensures g.AuthGuard? ==> r == []
    ensures g.RoleGuard? && RG.CanActivate(user, roles).allow ==> r == []
    ensures g.RoleGuard? && !RG.CanActivate(user, roles).allow ==> r == [if user.None? then "/login" else "/unauthorized"]
  {
    match g
    case AuthGuard => []
    case RoleGuard =>
      var d := RG.CanActivate(user, roles);
      if d.allow then [] else [d.navigateTo.value]
  }

  /** Every guard's verdict, in declaration order: all of them allow. */
  function AllAllow(guards: seq<Guard>, roles: Option<seq<Role>>, user: Option<User>, authGuardPasses: bool): (r: bool)
    ensures r <==> forall i :: 0 <= i < |guards| ==> GuardAllows(guards[i], roles, user, authGuardPasses)
    decreases |guards|
  {
    if |guards| == 0 then true
    else GuardAllows(guards[0], roles, user, authGuardPasses) && AllAllow(guards[1..], roles, user, authGuardPasses)
  }

  /**
   * Whether a guard refuses while it is being subscribed: `RoleGuard`
   * returns a plain boolean, `AuthGuard` answers at once when `authGuardSync`.
   */
  predicate RefusesAtOnce(g: Guard, roles: Option<seq<Role>>, user: Option<User>,
                          authGuardPasses: bool, authGuardSync: bool)
  {
    !GuardAllows(g, roles, user, authGuardPasses) && (g.RoleGuard? || authGuardSync)
  }

  /**
   * The navigations of the guards that run, in declaration order. The router
   * subscribes to the guards one after another and takes the first settled
   * verdict, so a refusal given during a subscription ends the check before
   * any later guard is subscribed.
   */
  function Navigations(guards: seq<Guard>, roles: Option<seq<Role>>, user: Option<User>,
                       authGuardPasses: bool, authGuardSync: bool): (r: seq<string>)
    ensures |r| <= |guards|
    ensures RoleGuard !in guards ==> r == []
    ensures forall k :: 0 <= k < |r| ==> r[k] == (if user.None? then "/login" else "/unauthorized")
    ensures |guards| > 0 && guards[0].AuthGuard? && RefusesAtOnce(guards[0], roles, user, authGuardPasses, authGuardSync) ==> r == []
    decreases |guards|
  {
    if |guards| == 0 then []
    else if RefusesAtOnce(guards[0], roles, user, authGuardPasses, authGuardSync) then GuardNavigation(guards[0], roles, user)
    else GuardNavigation(guards[0], roles, user) + Navigations(guards[1..], roles, user, authGuardPasses, authGuardSync)
  }

  /**
   * The `canActivate` check: the screen renders only when every guard
   * allows; otherwise the guards that ran have started their navigations.
   */
  function RunGuards(guards: seq<Guard>, roles: Option<seq<Role>>, user: Option<User>,
                     authGuardPasses: bool, authGuardSync: bool, path: string): (n: Navigation)
    ensures n.Render? <==> forall i :: 0 <= i < |guards| ==> GuardAllows(guards[i], roles, user, authGuardPasses)
    ensures n.Render? ==> n.path == path
    ensures n.Blocked? ==> n.navigations == Navigations(guards, roles, user, authGuardPasses, authGuardSync)
  {
    if AllAllow(guards, roles, user, authGuardPasses) then Render(path)
    else Blocked(Navigations(guards, roles, user, authGuardPasses, authGuardSync))
  }

  /** The whole decision for a URL path, the cached user and the (opaque) `AuthGuard` answer. */
  function Navigate(url: string, user: Option<User>, authGuardPasses: bool, authGuardSync: bool): Navigation {
    match Resolve(url)
    case Page(path, guards, roles) => RunGuards(guards, roles, user, authGuardPasses, authGuardSync, path)
    case Redirect(_, _) => Blocked([])
  }

  /** Every URL resolves to a screen: no redirect leads to another redirect. */
  lemma ResolveIsPage(url: string)
    ensures Resolve(url).Page?
  {
    var i := FirstMatch(url);
    if Routes[i].Redirect? {
      assert Routes[i].redirectTo == "/login";
      assert FirstMatch("login") == 1;
    }
  }

  /** No path is declared twice, and the wildcard is the last entry. */
  lemma PathsDistinctWildcardLast()
    ensures forall i, j :: 0 <= i < j < |Routes| ==> Routes[i].path != Routes[j].path
    ensures Routes[|Routes| - 1] == Redirect(Wildcard, "/login")
    ensures forall i :: 0 <= i < |Routes| - 1 ==> Routes[i].path != Wildcard
  {
  }

  /** Each declared path resolves to its own entry. */
  lemma DeclaredPathResolvesToItself(i: nat)
    requires i < |Routes| - 1
    ensures FirstMatch(Routes[i].path) == i
  {
    PathsDistinctWildcardLast();
  }

  /** The five ordinary screens carry `AuthGuard` only and declare no roles. */
  lemma AuthOnlyScreens(path: string)
    requires path in AuthOnlyPaths
    ensures Resolve(path) == Page(path, [AuthGuard], None)
  {
  }

  /** The two admin screens carry `AuthGuard` then `RoleGuard`, with roles `['admin']`. */
  lemma AdminScreens(path: string)
    requires path in AdminPaths
    ensures Resolve(path) == Page(path, [AuthGuard, RoleGuard], Some([AdminRole]))
  {
  }

  /**
   * On the admin screens a user with another role is sent to `/unauthorized`
   * unless `AuthGuard` refuses on the spot, which keeps `RoleGuard` from
   * running at all; an admin gets in exactly when `AuthGuard` passes.
   */
  lemma AdminScreensRefusePersonal(path: string, u: User, authGuardPasses: bool, authGuardSync: bool)
    requires path in AdminPaths
    ensures u.role != AdminRole && (authGuardPasses || !authGuardSync) ==>
              Navigate(path, Some(u), authGuardPasses, authGuardSync) == Blocked(["/unauthorized"])
    ensures u.role != AdminRole && !authGuardPasses && authGuardSync ==>
              Navigate(path, Some(u), authGuardPasses, authGuardSync) == Blocked([])
    ensures u.role == AdminRole ==>
              Navigate(path, Some(u), authGuardPasses, authGuardSync) == (if authGuardPasses then Render(path) else Blocked([]))
  {
    AdminScreens(path);
    var roles := Some([AdminRole]);
    if authGuardPasses || !authGuardSync {
      assert Navigations([AuthGuard, RoleGuard], roles, Some(u), authGuardPasses, authGuardSync)
          == GuardNavigation(AuthGuard, roles, Some(u)) + Navigations([RoleGuard], roles, Some(u), authGuardPasses, authGuardSync);
    }
  }

  /**
   * Without a user the admin screens start the navigation to `/login`,
   * unless `AuthGuard` refuses on the spot and `RoleGuard` never runs.
   */
  lemma AdminScreensWithoutUserGoToLogin(path: string, authGuardPasses: bool, authGuardSync: bool)
    requires path in AdminPaths
    ensures authGuardPasses || !authGuardSync ==> Navigate(path, None, authGuardPasses, authGuardSync) == Blocked(["/login"])
    ensures !authGuardPasses && authGuardSync ==> Navigate(path, None, authGuardPasses, authGuardSync) == Blocked([])
  {
    AdminScreens(path);
    var roles := Some([AdminRole]);
    if authGuardPasses || !authGuardSync {
      assert Navigations([AuthGuard, RoleGuard], roles, None, authGuardPasses, authGuardSync)
          == GuardNavigation(AuthGuard, roles, None) + Navigations([RoleGuard], roles, None, authGuardPasses, authGuardSync);
    }
  }

  /** The public screens render for anyone, whatever `AuthGuard` would say. */
  lemma PublicScreensOpen(path: string, user: Option<User>, authGuardPasses: bool, authGuardSync: bool)
    requires path in PublicPaths
    ensures Navigate(path, user, authGuardPasses, authGuardSync) == Render(path)
  {
  }

  /** The empty path and every undeclared path end on the login screen. */
  lemma UnknownPathsGoToLogin(url: string, user: Option<User>, authGuardPasses: bool, authGuardSync: bool)
    requires url !in AuthOnlyPaths && url !in AdminPaths && url !in PublicPaths
    ensures Navigate(url, user, authGuardPasses, authGuardSync) == Render("login")
  {
    var i := FirstMatch(url);
    assert i == 0 || i == |Routes| - 1;
    assert FirstMatch("login") == 1;
  }

  /** A screen behind `AuthGuard` renders only when `AuthGuard` passes; the five ordinary screens then start no navigation of their own. */
  lemma GuardedScreensNeedAuthGuard(url: string, user: Option<User>, authGuardSync: bool)
    requires Resolve(url).Page? && AuthGuard in Resolve(url).guards
    ensures Navigate(url, user, false, authGuardSync).Blocked?
    ensures url in AuthOnlyPaths ==> Navigate(url, user, false, authGuardSync) == Blocked([])
  {
    var page := Resolve(url);
    var i :| 0 <= i < |page.guards| && page.guards[i] == AuthGuard;
    assert !GuardAllows(page.guards[i], page.roles, user, false);
    assert Navigate(url, user, false, authGuardSync) == RunGuards(page.guards, page.roles, user, false, authGuardSync, page.path);
    if url in AuthOnlyPaths {
      AuthOnlyScreens(url);
      assert Navigations([AuthGuard], None, user, false, authGuardSync) == [];
    }
  }
}

=== FILE: auth_model.dfy ===
/**
 * The identity the session holds (`User` of auth.service.ts) and the text
 * form in which it is kept under the `user` storage key.
 *
 * The source writes that text with `JSON.stringify` and reads it with
 * `JSON.parse`. The model stands in a codec of its own for that pair: each
 * field escaped and terminated by `|`. Only its round trip is relied on.
 */
module AuthModel {
  import opened Common
  import opened Decimal

  /**
   * A role is whatever string the server sent: the type annotation names
   * `admin` and `personal`, but neither the parsing of a stored user nor the
   * mapping of a server reply checks it.
   */
  type Role = string

  const AdminRole: Role := "admin"
  const PersonalRole: Role := "personal"

  /** One of the two roles the console knows. */
  predicate KnownRole(r: Role) {
    r == AdminRole || r == PersonalRole
  }

  /** The authenticated user's profile. */
  datatype User = User(id: Option<int>, email: string, role: Role,
                       createdAt: Option<string>, updatedAt: Option<string>)

  // ---------- stored text of a user ----------

  /** A field with `\` and `|` escaped by a preceding `\`. */
  function EscapeField(f: string): string
    decreases |f|
  {
    if |f| == 0 then ""
    else (if f[0] == '\\' || f[0] == '|' then ['\\', f[0]] else [f[0]]) + EscapeField(f[1..])
  }

  /** Reads one escaped field up to its unescaped `|` terminator; returns the field and the rest. */
  function ReadField(s: string): (r: Option<(string, string)>)
    ensures r.Some? ==> |r.value.1| < |s|
    decreases |s|
  {
    if |s| == 0 then None
    else if s[0] == '|' then Some(("", s[1..]))
    else if s[0] == '\\' then
      if |s| < 2 then None
      else match ReadField(s[2..])
        case None => None
        case Some((f, rest)) => Some(([s[1]] + f, rest))
    else match ReadField(s[1..])
      case None => None
      case Some((f, rest)) => Some(([s[0]] + f, rest))
  }

  /** Reading an escaped, terminated field yields the field and leaves what follows. */
  lemma {:induction false} ReadEscapedField(f: string, rest: string)
    ensures ReadField(EscapeField(f) + "|" + rest) == Some((f, rest))
    decreases |f|
  {
    if |f| == 0 {
      assert EscapeField(f) + "|" + rest == "|" + rest;
    } else {
      ReadEscapedField(f[1..], rest);
      var tail := EscapeField(f[1..]) + "|" + rest;
      if f[0] == '\\' || f[0] == '|' {
        assert EscapeField(f) + "|" + rest == ['\\', f[0]] + tail;
        assert (['\\', f[0]] + tail)[2..] == tail;
      } else {
        assert EscapeField(f) + "|" + rest == [f[0]] + tail;
        assert ([f[0]] + tail)[1..] == tail;
      }
      assert [f[0]] + f[1..] == f;
    }
  }

  /** A list of fields, each escaped and terminated. */
  function EncodeFields(fs: seq<string>): string
    decreases |fs|
  {
    if |fs| == 0 then "" else EscapeField(fs[0]) + "|" + EncodeFields(fs[1..])
  }

  /** Reads a list of fields written by `EncodeFields`. */
  function DecodeFields(s: string): Option<seq<string>>
    decreases |s|
  {
    if |s| == 0 then Some([])
    else match ReadField(s)
      case None => None
      case Some((f, rest)) =>
        match DecodeFields(rest)
        case None => None
        case Some(fs) => Some([f] + fs)
  }

  /** Decoding encoded fields gives the fields back. */
  lemma {:induction false} DecodeEncodeFields(fs: seq<string>)
    ensures DecodeFields(EncodeFields(fs)) == Some(fs)
    decreases |fs|
  {
    if |fs| > 0 {
      var rest := EncodeFields(fs[1..]);
      assert EncodeFields(fs) == EscapeField(fs[0]) + "|" + rest;
      ReadEscapedField(fs[0], rest);
      DecodeEncodeFields(fs[1..]);
      assert [fs[0]] + fs[1..] == fs;
    }
  }

  /** An optional number: empty when absent. */
  function IdField(id: Option<int>): string {
    match id
    case None => ""
    case Some(i) => IntToString(i)
  }

  function ParseIdField(s: string): Option<Option<int>> {
    if s == "" then Some(None)
    else match ParseInt(s)
      case None => None
      case Some(i) => Some(Some(i))
  }

  /** An optional string: empty when absent, `=` and the text when present. */
  function TextField(t: Option<string>): string {
    match t
    case None => ""
    case Some(v) => "=" + v
  }

  function ParseTextField(s: string): Option<Option<string>> {
    if s == "" then Some(None)
    else if s[0] == '=' then Some(Some(s[1..]))
    else None
  }

  /** The stored text of a user (the model's stand-in for `JSON.stringify(user)`). */
  function EncodeUser(u: User): string {
    EncodeFields([IdField(u.id), u.email, u.role, TextField(u.createdAt), TextField(u.updatedAt)])
  }

  /** Reads a stored user (the model's stand-in for `JSON.parse`); `None` where the source would throw. */
  function DecodeUser(s: string): Option<User> {
    match DecodeFields(s)
    case None => None
    case Some(fs) =>
      if |fs| != 5 then None
      else match (ParseIdField(fs[0]), ParseTextField(fs[3]), ParseTextField(fs[4]))
        case (Some(id), Some(created), Some(updated)) => Some(User(id, fs[1], fs[2], created, updated))
        case _ => None
  }

  /** A stored user reads back as the same user. */
  lemma UserRoundTrip(u: User)
    ensures DecodeUser(EncodeUser(u)) == Some(u)
  {
    var fs := [IdField(u.id), u.email, u.role, TextField(u.createdAt), TextField(u.updatedAt)];
    DecodeEncodeFields(fs);
    if u.id.Some? {
      IntRoundTrip(u.id.value);
    }
    if u.createdAt.Some? {
      assert ("=" + u.createdAt.value)[1..] == u.createdAt.value;
    }
    if u.updatedAt.Some? {
      assert ("=" + u.updatedAt.value)[1..] == u.updatedAt.value;
    }
  }

  /** The stored text of a user is never empty, so it is truthy in storage. */
  lemma EncodedUserNotEmpty(u: User)
    ensures EncodeUser(u) != ""
  {
  }
}

=== FILE: auth_service.dfy ===
/**
 * The session store of auth.service.ts: the browser storage entries `token`,
 * `user` and `token_expiry`, the published current user, the transitions
 * that change them, the predicates derived from them, the error classifier
 * and the ordered probing of the password-change endpoints.
 *
 * `Date.now()` is the parameter `now` (milliseconds); decoding the token's
 * claims segment (`atob` then `JSON.parse`) is the parameter `decode`; every
 * HTTP call is the outcome it delivered.
 */
module AuthService {
  import opened Common
  import opened Text
  import opened Decimal
  import opened AuthModel

  const TokenKey := "token"
  const UserKey := "user"
  const ExpiryKey := "token_expiry"

  /** Seconds before the token's expiry from which it already counts as expiring. */
  const TokenExpiryBuffer := 300

  datatype LoginResponse = LoginResponse(token: string, user: User, expiresIn: Option<int>)
  datatype ChangePasswordRequest = ChangePasswordRequest(currentPassword: string, newPassword: string)
  datatype ChangePasswordResponse = ChangePasswordResponse(message: string, success: bool, user: Option<User>)

  /** The error every failing call surfaces after `handleError`; the timestamp is left out. */
  datatype ApiError = ApiError(message: string, status: int, details: ErrorBody)

  /**
   * What decoding the token's claims yields: nothing (decoding threw), or a
   * payload whose `exp` is the number of seconds JavaScript converts it to
   * (`null`, `""` and `false` become 0, a numeric string its value), or `None`
   * when `payload.exp * 1000` is `NaN` (an absent `exp`, a non-numeric
   * string, an object).
   */
  datatype TokenPayload = Undecodable | Decoded(exp: Option<int>)

  /**
   * The service's state: browser storage, the current value of the user
   * subject, and every value the subject has emitted, oldest first (the
   * first is the initial `null`).
   */
  datatype Session = Session(storage: map<string, string>, currentUser: Option<User>,
                             published: seq<Option<User>>)

  /** The subject's current value is the last value it emitted. */
  ghost predicate Valid(s: Session) {
    |s.published| > 0 && s.published[|s.published| - 1] == s.currentUser
  }

  /** `localStorage.getItem(key)`. */
  function Lookup(storage: map<string, string>, key: string): Option<string> {
    if key in storage then Some(storage[key]) else None
  }

  /** `getToken()`. */
  function GetToken(s: Session): Option<string> {
    Lookup(s.storage, TokenKey)
  }

  /** A token is stored and it is not the empty string. */
  predicate HasToken(s: Session) {
    Truthy(GetToken(s))
  }

  /** None of the three session entries is stored and no user is published. */
  ghost predicate Cleared(s: Session) {
    TokenKey !in s.storage && UserKey !in s.storage && ExpiryKey !in s.storage && s.currentUser.None?
  }

  /** Apart from the three session entries, two storages hold the same entries. */
  ghost predicate SameOtherEntries(a: map<string, string>, b: map<string, string>) {
    forall k :: k != TokenKey && k != UserKey && k != ExpiryKey ==> Lookup(a, k) == Lookup(b, k)
  }

  /** The state the service starts from, before reading storage. */
  function Initial(storage: map<string, string>): (s: Session)
    ensures Valid(s) && s.currentUser.None? && s.storage == storage
  {
    Session(storage, None, [None])
  }

  // ---------- token freshness ----------

  /** The token's `exp` claim leaves at least the buffer before expiry, in milliseconds. */
  ghost predicate FreshAt(exp: int, now: int) {
    exp * 1000 - now >= TokenExpiryBuffer * 1000
  }

  /**
   * `isTokenExpiringSoon()` as written: a payload whose `exp` gives a `NaN`
   * product computes `NaN - now < 300000`, which is false, so it never counts as expiring.
   */
  function IsTokenExpiringSoonAsWritten(s: Session, now: int, decode: string -> TokenPayload): (r: bool)
    ensures !HasToken(s) ==> r
    ensures HasToken(s) && decode(GetToken(s).value).Undecodable? ==> r
    ensures HasToken(s) && decode(GetToken(s).value) == Decoded(None) ==> !r
    ensures HasToken(s) && decode(GetToken(s).value).Decoded? && decode(GetToken(s).value).exp.Some? ==>
              (r <==> !FreshAt(decode(GetToken(s).value).exp.value, now))
  {
    if !HasToken(s) then true
    else match decode(GetToken(s).value)
      case Undecodable => true
      case Decoded(None) => false
      case Decoded(Some(exp)) => exp * 1000 - now < TokenExpiryBuffer * 1000
  }

  /** A token whose `exp` gives a `NaN` expiry time is never treated as expiring, however late the clock. */
  lemma MissingExpNeverExpiresAsWritten(s: Session, decode: string -> TokenPayload)
    requires HasToken(s) && decode(GetToken(s).value) == Decoded(None)
    ensures forall now :: !IsTokenExpiringSoonAsWritten(s, now, decode)
  {
  }

  /**
   * `isTokenExpiringSoon()`, failing closed: false exactly when a token is
   * stored, its claims decode to an `exp` with a numeric product, and at least 300 s remain.
   */
  function IsTokenExpiringSoon(s: Session, now: int, decode: string -> TokenPayload): (r: bool)
    ensures !r <==> HasToken(s) && decode(GetToken(s).value).Decoded?
                    && decode(GetToken(s).value).exp.Some?
                    && FreshAt(decode(GetToken(s).value).exp.value, now)
  {
    if !HasToken(s) then true
    else match decode(GetToken(s).value)
      case Undecodable => true
      case Decoded(None) => true
      case Decoded(Some(exp)) => exp * 1000 - now < TokenExpiryBuffer * 1000
  }

  /** The two readings differ only on a payload whose `exp` gives a `NaN` expiry time. */
  lemma ExpiringSoonAgreesWhenExpPresent(s: Session, now: int, decode: string -> TokenPayload)
    requires !HasToken(s) || decode(GetToken(s).value) != Decoded(None)
    ensures IsTokenExpiringSoon(s, now, decode) == IsTokenExpiringSoonAsWritten(s, now, decode)
  {
  }

  /** Exactly 300 s left is not expiring; one millisecond less is. */
  lemma ExpiryBoundary(s: Session, decode: string -> TokenPayload, exp: int)
    requires HasToken(s) && decode(GetToken(s).value) == Decoded(Some(exp))
    ensures !IsTokenExpiringSoon(s, exp * 1000 - 300 * 1000, decode)
    ensures IsTokenExpiringSoon(s, exp * 1000 - 300 * 1000 + 1, decode)
  {
  }

  /** Once a token counts as expiring it keeps counting as expiring as time goes on. */
  lemma ExpiringSoonMonotone(s: Session, decode: string -> TokenPayload, now: int, later: int)
    requires now <= later
    requires IsTokenExpiringSoon(s, now, decode)
    ensures IsTokenExpiringSoon(s, later, decode)
  {
  }

  /** `isAuthenticated()`: a token is stored, it is not expiring soon, and a user is published. */
  function IsAuthenticated(s: Session, now: int, decode: string -> TokenPayload): (r: bool)
    ensures r <==> HasToken(s) && s.currentUser.Some?
                   && decode(GetToken(s).value).Decoded? && decode(GetToken(s).value).exp.Some?
                   && FreshAt(decode(GetToken(s).value).exp.value, now)
  {
    if !HasToken(s) then false
    else if IsTokenExpiringSoon(s, now, decode) then false
    else s.currentUser.Some?
  }

  /**
   * `isAuthenticated()` as written, on the expiry check as written: a token
   * whose `exp` gives a `NaN` expiry time passes for good at any time.
   */
  function IsAuthenticatedAsWritten(s: Session, now: int, decode: string -> TokenPayload): (r: bool)
    ensures r <==> HasToken(s) && s.currentUser.Some? && decode(GetToken(s).value).Decoded?
                   && (decode(GetToken(s).value).exp.None? || FreshAt(decode(GetToken(s).value).exp.value, now))
  {
    if !HasToken(s) then false
    else if IsTokenExpiringSoonAsWritten(s, now, decode) then false
    else s.currentUser.Some?
  }

  /**
   * The two readings of `isAuthenticated()` differ exactly on a stored token
   * whose `exp` gives a `NaN` expiry time and a published user: the code as written lets
   * that session in, the corrected check does not.
   */
  lemma MissingExpAuthenticatesAsWritten(s: Session, now: int, decode: string -> TokenPayload)
    ensures IsAuthenticated(s, now, decode) ==> IsAuthenticatedAsWritten(s, now, decode)
    ensures IsAuthenticatedAsWritten(s, now, decode) != IsAuthenticated(s, now, decode)
            <==> HasToken(s) && s.currentUser.Some? && decode(GetToken(s).value) == Decoded(None)
  {
  }

  /** `hasRole(role)`: a user is published and its role string is `role`. */
  function HasRole(s: Session, role: string): (r: bool)
    ensures s.currentUser.None? ==> !r
    ensures s.currentUser.Some? ==> (r <==> s.currentUser.value.role == role)
  {
    match s.currentUser
    case None => false
    case Some(u) => u.role == role
  }

  /**
   * A published user answers to exactly one role string, its own, and so to
   * exactly one of `admin` and `personal` when its role is one of them; a
   * role the server made up answers to neither.
   */
  lemma HasRoleExactlyOne(s: Session, a: string, b: string)
    ensures s.currentUser.Some? ==> HasRole(s, s.currentUser.value.role)
    ensures HasRole(s, a) && HasRole(s, b) ==> a == b
    ensures HasRole(s, AdminRole) != HasRole(s, PersonalRole) <==> s.currentUser.Some? && KnownRole(s.currentUser.value.role)
  {
  }

  // ---------- transitions ----------

  /** `setAuthData(response)`: stores token and user, the expiry when `expiresIn` is truthy, publishes the user. */
  function SetAuthData(s: Session, response: LoginResponse, now: int): (r: Session)
    ensures Lookup(r.storage, TokenKey) == Some(response.token)
    ensures UserKey in r.storage && DecodeUser(r.storage[UserKey]) == Some(response.user)
    ensures response.expiresIn.Some? && response.expiresIn.value != 0 ==>
              ExpiryKey in r.storage && ParseInt(r.storage[ExpiryKey]) == Some(now + response.expiresIn.value * 1000)
    ensures !(response.expiresIn.Some? && response.expiresIn.value != 0) ==>
              Lookup(r.storage, ExpiryKey) == Lookup(s.storage, ExpiryKey)
    ensures SameOtherEntries(r.storage, s.storage)
    ensures r.currentUser == Some(response.user)
    ensures r.published == s.published + [Some(response.user)]
    ensures Valid(r)
  {
    UserRoundTrip(response.user);
    var stored := s.storage[TokenKey := response.token][UserKey := EncodeUser(response.user)];
    var withExpiry :=
      if response.expiresIn.Some? && response.expiresIn.value != 0 then
        IntRoundTrip(now + response.expiresIn.value * 1000);
        stored[ExpiryKey := IntToString(now + response.expiresIn.value * 1000)]
      else stored;
    Session(withExpiry, Some(response.user), s.published + [Some(response.user)])
  }

  /** `clearAuthData()`: removes the three session entries and publishes no user. */
  function ClearAuthData(s: Session): (r: Session)
    ensures Cleared(r)
    ensures SameOtherEntries(r.storage, s.storage)
    ensures r.published == s.published + [None]
    ensures Valid(r)
  {
    Session(s.storage - {TokenKey, UserKey, ExpiryKey}, None, s.published + [None])
  }

  /** Clearing a cleared session changes neither storage nor user; it only emits `null` again. */
  lemma {:induction false} ClearIdempotent(s: Session)
    ensures ClearAuthData(ClearAuthData(s)).storage == ClearAuthData(s).storage
    ensures ClearAuthData(ClearAuthData(s)).currentUser == ClearAuthData(s).currentUser
  {
    var once := ClearAuthData(s).storage;
    assert once - {TokenKey, UserKey, ExpiryKey} == once;
  }

  /** `updateCurrentUser(user)`: rewrites the stored user and publishes it, leaving the token alone. */
  function UpdateCurrentUser(s: Session, user: User): (r: Session)
    ensures UserKey in r.storage && DecodeUser(r.storage[UserKey]) == Some(user)
    ensures Lookup(r.storage, TokenKey) == Lookup(s.storage, TokenKey)
    ensures Lookup(r.storage, ExpiryKey) == Lookup(s.storage, ExpiryKey)
    ensures SameOtherEntries(r.storage, s.storage)
    ensures r.currentUser == Some(user) && r.published == s.published + [Some(user)]
    ensures Valid(r)
  {
    UserRoundTrip(user);
    Session(s.storage[UserKey := EncodeUser(user)], Some(user), s.published + [Some(user)])
  }

  /** The stored user text cannot be read back (where `JSON.parse` would throw). */
  datatype LoadFailure = MalformedStoredUser

  /**
   * `loadUserFromStorage()`: when both a token and a user are stored,
   * publishes the stored user; otherwise changes nothing. Storage is never written.
   */
  function LoadUserFromStorage(s: Session): (r: Outcome<Session, LoadFailure>)
    ensures !(Truthy(Lookup(s.storage, TokenKey)) && Truthy(Lookup(s.storage, UserKey))) ==> r == Ok(s)
    ensures Truthy(Lookup(s.storage, TokenKey)) && Truthy(Lookup(s.storage, UserKey)) ==>
              match DecodeUser(s.storage[UserKey])
              case None => r.Err?
              case Some(u) => r.Ok? && r.value.currentUser == Some(u) && r.value.published == s.published + [Some(u)]
    ensures r.Ok? ==> r.value.storage == s.storage
    ensures Valid(s) && r.Ok? ==> Valid(r.value)
  {
    if Truthy(Lookup(s.storage, TokenKey)) && Truthy(Lookup(s.storage, UserKey)) then
      match DecodeUser(s.storage[UserKey])
      case None => Err(MalformedStoredUser)
      case Some(u) => Ok(Session(s.storage, Some(u), s.published + [Some(u)]))
    else Ok(s)
  }

  /** The service as constructed on page load: the initial state, then `loadUserFromStorage()`. */
  function Start(storage: map<string, string>): Outcome<Session, LoadFailure> {
    LoadUserFromStorage(Initial(storage))
  }

  /** After a login, a page reload publishes the same user again from storage. */
  lemma ReloadRestoresUser(s: Session, response: LoginResponse, now: int)
    requires response.token != ""
    ensures var after := SetAuthData(s, response, now);
            Start(after.storage) == Ok(Session(after.storage, Some(response.user), [None, Some(response.user)]))
  {
    var after := SetAuthData(s, response, now);
    EncodedUserNotEmpty(response.user);
    assert Truthy(Lookup(after.storage, TokenKey));
    assert Truthy(Lookup(after.storage, UserKey));
    assert DecodeUser(after.storage[UserKey]) == Some(response.user);
    assert Initial(after.storage).published + [Some(response.user)] == [None, Some(response.user)];
  }

  /** After a clear, a page reload starts with no user. */
  lemma ReloadAfterClearIsAnonymous(s: Session)
    ensures Start(ClearAuthData(s).storage) == Ok(Initial(ClearAuthData(s).storage))
  {
  }

  /** `getAuthHeaders()`: JSON content type, and the bearer token when a token is stored. */
  function GetAuthHeaders(s: Session): (h: map<string, string>)
    ensures h.Keys <= {"Content-Type", "Authorization"}
    ensures "Content-Type" in h && h["Content-Type"] == "application/json"
    ensures "Authorization" in h <==> HasToken(s)
    ensures HasToken(s) ==> h["Authorization"] == "Bearer " + GetToken(s).value
  {
    var base := map["Content-Type" := "application/json"];
    if HasToken(s) then base["Authorization" := "Bearer " + GetToken(s).value] else base
  }

  /**
   * `logout()`: posts to the logout endpoint with the current headers and
   * clears the session at once; the backend's answer is only logged.
   */
  function Logout(s: Session, apiUrl: string, backend: Outcome<(), HttpError>): (r: (Session, Request))
    ensures Cleared(r.0) && SameOtherEntries(r.0.storage, s.storage)
    ensures r.0.published == s.published + [None]
    ensures r.1.url == apiUrl + "/auth/logout"
    ensures HasToken(s) ==> "Authorization" in r.1.headers && r.1.headers["Authorization"] == "Bearer " + GetToken(s).value
  {
    (ClearAuthData(s), Request(apiUrl + "/auth/logout", GetAuthHeaders(s)))
  }

  /** Logout ends in the same state whatever the backend answers. */
  lemma LogoutIgnoresBackend(s: Session, apiUrl: string, a: Outcome<(), HttpError>, b: Outcome<(), HttpError>)
    ensures Logout(s, apiUrl, a) == Logout(s, apiUrl, b)
  {
  }

  // ---------- errors ----------

  /** The statuses `getErrorMessage` answers with a fixed text whatever the server sent. */
  const FixedTextStatuses: set<int> := {0, 401, 403, 404, 409, 422, 429, 500, 503}

  /** `getErrorMessage(error)`: a friendly message for a failed call; never empty. */
  function GetErrorMessage(error: HttpError): (r: string)
    ensures error.body.ClientEvent? ==> r == "Error del cliente: " + error.body.eventMessage
    ensures error.body.ServerBody? && error.status !in FixedTextStatuses && Truthy(error.body.message) ==>
              r == error.body.message.value
    ensures error.body.ServerBody? && error.status == 400 && !Truthy(error.body.message) ==>
              r == "Solicitud inválida."
    ensures (error.body.ServerBody? && error.status != 400 && error.status !in FixedTextStatuses
             && !Truthy(error.body.message)) ==> r == "Error inesperado: " + IntToString(error.status)
    ensures r != ""
  {
    match error.body
    case ClientEvent(m) => "Error del cliente: " + m
    case ServerBody(_) =>
      var status := error.status;
      if status == 0 then "No se puede conectar al servidor. Verifica tu conexión a internet."
      else if status == 400 then OrElse(BodyMessage(error.body), "Solicitud inválida.")
      else if status == 401 then "No autorizado. Tu sesión ha expirado."
      else if status == 403 then "Acceso denegado. No tienes permisos para esta acción."
      else if status == 404 then "El recurso solicitado no existe."
      else if status == 409 then "Conflicto: El recurso ya existe."
      else if status == 422 then "Datos de entrada inválidos."
      else if status == 429 then "Demasiadas solicitudes. Intenta más tarde."
      else if status == 500 then "Error interno del servidor. Contacta al administrador."
      else if status == 503 then "Servicio no disponible. Intenta más tarde."
      else OrElse(BodyMessage(error.body), "Error inesperado: " + IntToString(status))
  }

  /** For the fixed-text statuses the message does not depend on what the server sent. */
  lemma FixedTextIgnoresBody(status: int, a: Option<string>, b: Option<string>)
    requires status in FixedTextStatuses
    ensures GetErrorMessage(HttpError(status, ServerBody(a))) == GetErrorMessage(HttpError(status, ServerBody(b)))
  {
  }

  /** A status that makes `handleError` clear the session. */
  predicate ClearsSession(status: int) {
    status == 401 || status == 403
  }

  /**
   * `handleError(operation)(error)`: builds the `ApiError` (same status, the
   * friendly message, the body as details) and clears the session on 401 or 403.
   */
  function HandleError(s: Session, error: HttpError): (r: (Session, ApiError))
    ensures r.1.status == error.status && r.1.details == error.body
    ensures r.1.message == GetErrorMessage(error) && r.1.message != ""
    ensures ClearsSession(error.status) ==> Cleared(r.0) && SameOtherEntries(r.0.storage, s.storage)
    ensures !ClearsSession(error.status) ==> r.0 == s
  {
    var apiError := ApiError(GetErrorMessage(error), error.status, error.body);
    if ClearsSession(error.status) then (ClearAuthData(s), apiError) else (s, apiError)
  }

  // ---------- calls ----------

  /** `login(credentials)`: stores the session on success; on failure goes through `handleError`. */
  function Login(s: Session, now: int, outcome: Outcome<LoginResponse, HttpError>): (r: (Session, Outcome<LoginResponse, ApiError>))
    ensures outcome.Ok? ==> r.1 == Ok(outcome.value) && r.0.currentUser == Some(outcome.value.user)
                            && Lookup(r.0.storage, TokenKey) == Some(outcome.value.token)
    ensures outcome.Err? ==> r.1.Err? && r.1.error.status == outcome.error.status
    ensures outcome.Err? && ClearsSession(outcome.error.status) ==> Cleared(r.0)
    ensures outcome.Err? && !ClearsSession(outcome.error.status) ==> r.0 == s
  {
    match outcome
    case Ok(response) => (SetAuthData(s, response, now), Ok(response))
    case Err(e) =>
      var (after, apiError) := HandleError(s, e);
      (after, Err(apiError))
  }

  /** A successful login with a token good for more than the buffer leaves the session authenticated. */
  lemma LoginAuthenticates(s: Session, now: int, decode: string -> TokenPayload, response: LoginResponse)
    requires response.token != ""
    requires decode(response.token).Decoded? && decode(response.token).exp.Some?
    requires FreshAt(decode(response.token).exp.value, now)
    ensures IsAuthenticated(Login(s, now, Ok(response)).0, now, decode)
    ensures IsAuthenticatedAsWritten(Login(s, now, Ok(response)).0, now, decode)
  {
  }

  /** After any clear, the session is not authenticated and holds no role. */
  lemma ClearedIsAnonymous(s: Session, now: int, decode: string -> TokenPayload, role: string)
    ensures !IsAuthenticated(ClearAuthData(s), now, decode)
    ensures !IsAuthenticatedAsWritten(ClearAuthData(s), now, decode)
    ensures !HasRole(ClearAuthData(s), role)
  {
  }

  /** `refreshToken()`: stores the new session on success; on failure clears and passes on the original error. */
  function RefreshToken(s: Session, now: int, outcome: Outcome<LoginResponse, HttpError>): (r: (Session, Outcome<LoginResponse, HttpError>))
    ensures r.1 == outcome
    ensures outcome.Ok? ==> r.0.currentUser == Some(outcome.value.user)
                            && Lookup(r.0.storage, TokenKey) == Some(outcome.value.token)
    ensures outcome.Err? ==> Cleared(r.0) && SameOtherEntries(r.0.storage, s.storage)
  {
    match outcome
    case Ok(response) => (SetAuthData(s, response, now), outcome)
    case Err(_) => (ClearAuthData(s), outcome)
  }

  // ---------- password change ----------

  /** How many password-change endpoints are tried. */
  const EndpointCount := 4

  /** The paths of the candidate endpoints below `environment.apiUrl`, in the order they are tried. */
  const EndpointPaths: seq<string> := ["/auth/change-password", "/auth/update-password", "/auth/password", "/users/change-password"]

  /**
   * The candidate endpoints: each is `apiUrl` followed by its path, so the
   * four are different URLs whatever `apiUrl` is.
   */
  function ChangePasswordEndpoints(apiUrl: string): (endpoints: seq<string>)
    ensures |endpoints| == EndpointCount
    ensures forall i :: 0 <= i < |endpoints| ==>
              StartsWith(endpoints[i], apiUrl) && endpoints[i][|apiUrl|..] == EndpointPaths[i]
    ensures forall i, j :: 0 <= i < j < |endpoints| ==> endpoints[i] != endpoints[j]
  {
    var endpoints := seq(EndpointCount, i requires 0 <= i < EndpointCount => apiUrl + EndpointPaths[i]);
    assert forall i :: 0 <= i < EndpointCount ==> endpoints[i][|apiUrl|..] == EndpointPaths[i];
    endpoints
  }

  /** One HTTP request of the probe: the endpoint's index and whether it is the retry. */
  datatype Attempt = Attempt(endpoint: nat, retry: nat)

  /** What the backend answers to a given attempt. */
  type Responder = Attempt -> Outcome<ChangePasswordResponse, HttpError>

  /** The attempt made after `a` fails: its retry, or the next endpoint's first try. */
  function NextAttempt(a: Attempt): Attempt {
    if a.retry == 0 then Attempt(a.endpoint, 1) else Attempt(a.endpoint + 1, 0)
  }

  /**
   * The attempts form the fixed schedule starting at endpoint `from`: each
   * failed attempt is followed by the next in the schedule, and the run
   * stops at the first success or after the last endpoint's retry.
   */
  ghost predicate FollowsSchedule(attempts: seq<Attempt>, outcome: Outcome<ChangePasswordResponse, HttpError>,
                                  respond: Responder, from: nat)
  {
    && |attempts| >= 1
    && attempts[0] == Attempt(from, 0)
    && (forall i :: 0 <= i < |attempts| ==> attempts[i].endpoint < EndpointCount && attempts[i].retry < 2)
    && (forall i :: 0 <= i < |attempts| - 1 ==> respond(attempts[i]).Err? && attempts[i + 1] == NextAttempt(attempts[i]))
    && outcome == respond(attempts[|attempts| - 1])
    && (outcome.Err? ==> attempts[|attempts| - 1] == Attempt(EndpointCount - 1, 1))
  }

  /** `tryEndpoint(endpoint)`: one request, retried once (`retry(1)`) when it fails. */
  function TryEndpoint(e: nat, respond: Responder): (r: (seq<Attempt>, Outcome<ChangePasswordResponse, HttpError>))
    ensures r.0 == (if respond(Attempt(e, 0)).Ok? then [Attempt(e, 0)] else [Attempt(e, 0), Attempt(e, 1)])
    ensures r.1 == respond(r.0[|r.0| - 1])
  {
    var first := respond(Attempt(e, 0));
    if first.Ok? then ([Attempt(e, 0)], first)
    else ([Attempt(e, 0), Attempt(e, 1)], respond(Attempt(e, 1)))
  }

  /** The chain of `catchError(() => tryEndpoint(...))` from endpoint `from` to the last one. */
  function ProbeFrom(from: nat, respond: Responder): (r: (seq<Attempt>, Outcome<ChangePasswordResponse, HttpError>))
    requires from < EndpointCount
    ensures FollowsSchedule(r.0, r.1, respond, from)
    decreases EndpointCount - from
  {
    var (tried, outcome) := TryEndpoint(from, respond);
    if outcome.Ok? || from == EndpointCount - 1 then (tried, outcome)
    else
      var (more, last) := ProbeFrom(from + 1, respond);
      (tried + more, last)
  }

  /** When every request fails, all four endpoints are tried twice each, in order. */
  lemma AllFailTriesEverything(respond: Responder)
    requires forall a :: respond(a).Err?
    ensures ProbeFrom(0, respond).0 == [Attempt(0, 0), Attempt(0, 1), Attempt(1, 0), Attempt(1, 1),
                                        Attempt(2, 0), Attempt(2, 1), Attempt(3, 0), Attempt(3, 1)]
    ensures ProbeFrom(0, respond).1 == respond(Attempt(3, 1))
  {
  }

  /** The full schedule from endpoint `from` on: each endpoint tried, then retried. */
  function ScheduleFrom(from: nat): (attempts: seq<Attempt>)
    requires from <= EndpointCount
    ensures |attempts| == 2 * (EndpointCount - from)
    decreases EndpointCount - from
  {
    if from == EndpointCount then [] else [Attempt(from, 0), Attempt(from, 1)] + ScheduleFrom(from + 1)
  }

  /** A probe that ends in failure has gone through the whole schedule. */
  lemma {:induction false} FailedProbeTriesEverything(from: nat, respond: Responder)
    requires from < EndpointCount
    requires ProbeFrom(from, respond).1.Err?
    ensures ProbeFrom(from, respond).0 == ScheduleFrom(from)
    decreases EndpointCount - from
  {
    var (tried, outcome) := TryEndpoint(from, respond);
    assert outcome.Err?;
    if from < EndpointCount - 1 {
      FailedProbeTriesEverything(from + 1, respond);
    }
  }

  /** The URL each attempt posts to: the endpoint its index names. */
  function PostedUrls(apiUrl: string, attempts: seq<Attempt>): (urls: seq<string>)
    requires forall k :: 0 <= k < |attempts| ==> attempts[k].endpoint < EndpointCount
    ensures |urls| == |attempts|
    ensures forall k :: 0 <= k < |attempts| ==> urls[k] == ChangePasswordEndpoints(apiUrl)[attempts[k].endpoint]
  {
    seq(|attempts|, k requires 0 <= k < |attempts| => ChangePasswordEndpoints(apiUrl)[attempts[k].endpoint])
  }

  /** The outcome of `changePassword`: the attempts made, the new state, the surfaced result. */
  datatype ChangePasswordRun = ChangePasswordRun(attempts: seq<Attempt>, session: Session,
                                                 result: Outcome<ChangePasswordResponse, ApiError>)

  /**
   * `changePassword(request)`: probes the endpoints in order and stops at the
   * first success; only the final failure reaches `handleError`; a success
   * carrying `user` replaces the cached user.
   */
  function ChangePassword(s: Session, respond: Responder): (r: ChangePasswordRun)
    ensures r.attempts == ProbeFrom(0, respond).0 && (r.result.Err? <==> ProbeFrom(0, respond).1.Err?)
    ensures |r.attempts| >= 1 && FollowsSchedule(r.attempts, respond(r.attempts[|r.attempts| - 1]), respond, 0)
    ensures r.result.Ok? ==> respond(r.attempts[|r.attempts| - 1]) == Ok(r.result.value)
    ensures r.result.Ok? && r.result.value.user.Some? ==>
              r.session.currentUser == r.result.value.user && Lookup(r.session.storage, TokenKey) == Lookup(s.storage, TokenKey)
    ensures r.result.Ok? && r.result.value.user.None? ==> r.session == s
    ensures r.result.Err? ==> r.attempts[|r.attempts| - 1] == Attempt(EndpointCount - 1, 1)
                              && respond(Attempt(EndpointCount - 1, 1)).Err?
                              && r.result.error.status == respond(Attempt(EndpointCount - 1, 1)).error.status
    ensures r.result.Err? && ClearsSession(r.result.error.status) ==> Cleared(r.session)
    ensures r.result.Err? && !ClearsSession(r.result.error.status) ==> r.session == s
  {
    var (tried, outcome) := ProbeFrom(0, respond);
    match outcome
    case Ok(response) =>
      var after := if response.user.Some? then UpdateCurrentUser(s, response.user.value) else s;
      ChangePasswordRun(tried, after, Ok(response))
    case Err(e) =>
      var (after, apiError) := HandleError(s, e);
      ChangePasswordRun(tried, after, Err(apiError))
  }

  /**
   * The first request of `changePassword` goes to `<apiUrl>/auth/change-password`;
   * a change that fails has posted to every endpoint twice, in the declared order.
   */
  lemma ChangePasswordPostsInOrder(s: Session, respond: Responder, apiUrl: string)
    ensures var run := ChangePassword(s, respond);
            PostedUrls(apiUrl, run.attempts)[0] == apiUrl + "/auth/change-password"
    ensures var run := ChangePassword(s, respond);
            run.result.Err? ==>
              PostedUrls(apiUrl, run.attempts)
              == [apiUrl + "/auth/change-password", apiUrl + "/auth/change-password",
                  apiUrl + "/auth/update-password", apiUrl + "/auth/update-password",
                  apiUrl + "/auth/password", apiUrl + "/auth/password",
                  apiUrl + "/users/change-password", apiUrl + "/users/change-password"]
  {
    var run := ChangePassword(s, respond);
    var urls := PostedUrls(apiUrl, run.attempts);
    var endpoints := ChangePasswordEndpoints(apiUrl);
    assert endpoints == [apiUrl + "/auth/change-password", apiUrl + "/auth/update-password",
                         apiUrl + "/auth/password", apiUrl + "/users/change-password"];
    assert run.attempts[0] == Attempt(0, 0);
    if run.result.Err? {
      FailedProbeTriesEverything(0, respond);
      AllEightAttempts();
      assert urls == [endpoints[0], endpoints[0], endpoints[1], endpoints[1],
                      endpoints[2], endpoints[2], endpoints[3], endpoints[3]];
    }
  }

  /** The full schedule, written out. */
  lemma AllEightAttempts()
    ensures ScheduleFrom(0) == [Attempt(0, 0), Attempt(0, 1), Attempt(1, 0), Attempt(1, 1),
                                Attempt(2, 0), Attempt(2, 1), Attempt(3, 0), Attempt(3, 1)]
  {
  }
}

=== FILE: common.dfy ===
/**
 * Shared vocabulary of the console model: optional values, the outcome of an
 * asynchronous call, JavaScript truthiness of optional strings, and the shape
 * of a failed HTTP response as Angular's HttpClient reports it.
 */
module Common {

  /** A value that may be absent (`undefined` or `null` in the source). */
  datatype Option<+T> = None | Some(value: T)

  /** The single terminal outcome of one asynchronous call: a value or an error. */
  datatype Outcome<+T, +E> = Ok(value: T) | Err(error: E)

  /** JavaScript truthiness of an optional string: present and not empty. */
  predicate Truthy(o: Option<string>) {
    o.Some? && o.value != ""
  }

  /** JavaScript truthiness of an optional number: present and not zero. */
  predicate TruthyId(o: Option<int>) {
    o.Some? && o.value != 0
  }

  /** `o || fallback` on an optional string. */
  function OrElse(o: Option<string>, fallback: string): (r: string)
    ensures Truthy(o) ==> r == o.value
    ensures !Truthy(o) ==> r == fallback
    ensures fallback != "" ==> r != ""
  {
    if Truthy(o) then o.value else fallback
  }

  /** `o || ''` on an optional string. */
  function OrEmpty(o: Option<string>): string {
    if o.Some? then o.value else ""
  }

  /**
   * The `error` member of an HttpErrorResponse: a client-side ErrorEvent, or
   * whatever body the server sent, of which only an optional `message` is read.
   */
  datatype ErrorBody = ClientEvent(eventMessage: string) | ServerBody(message: Option<string>)

  /** A failed HTTP call: the status (0 when the server is unreachable) and the body. */
  datatype HttpError = HttpError(status: int, body: ErrorBody)

  /** `error.error?.message`: the message carried by the body, if any. */
  function BodyMessage(body: ErrorBody): Option<string> {
    match body
    case ClientEvent(m) => Some(m)
    case ServerBody(m) => m
  }

  /** An outgoing HTTP request: its URL and its headers. */
  datatype Request = Request(url: string, headers: map<string, string>)

  /** `a` is `b` with some elements left out, the rest in their original order. */
  ghost predicate Subsequence<T>(a: seq<T>, b: seq<T>)
    decreases |b|
  {
    |a| == 0 || (|b| > 0 && ((a[0] == b[0] && Subsequence(a[1..], b[1..])) || Subsequence(a, b[1..])))
  }
}

=== FILE: decimal.dfy ===
/**
 * Decimal text of integers: what a JavaScript template literal or
 * `toString()` prints for an integral number, and its parser.
 */
module Decimal {
  import opened Common
  import opened Text

  /** The digit character for `d`. */
  function DigitChar(d: nat): (c: char)
    requires d < 10
    ensures IsDigit(c) && c as int - '0' as int == d
  {
    ('0' as int + d) as char
  }

  /** All characters are decimal digits. */
  predicate AllDigits(s: string) {
    forall i :: 0 <= i < |s| ==> IsDigit(s[i])
  }

  /** The value of a string of digits, read most significant first. */
  function DigitsValue(s: string): nat
    requires AllDigits(s)
    decreases |s|
  {
    if |s| == 0 then 0
    else DigitsValue(s[..|s| - 1]) * 10 + (s[|s| - 1] as int - '0' as int)
  }

  /** The decimal text of a natural number: digits only, no leading zero, reading back as `n`. */
  function NatToString(n: nat): (r: string)
    ensures |r| >= 1 && AllDigits(r)
    ensures |r| > 1 ==> r[0] != '0'
    ensures DigitsValue(r) == n
    decreases n
  {
    if n < 10 then [DigitChar(n)]
    else
      var prefix := NatToString(n / 10);
      var r := prefix + [DigitChar(n % 10)];
      assert r[..|r| - 1] == prefix;
      r
  }

  /** `String(i)` for an integral number: a minus sign for negatives, then the digits. */
  function IntToString(i: int): (r: string)
    ensures |r| >= 1
    ensures i >= 0 <==> IsDigit(r[0])
  {
    if i < 0 then "-" + NatToString(-i) else NatToString(i)
  }

  /** Reads a non-empty string of digits. */
  function ParseNat(s: string): Option<nat> {
    if |s| > 0 && AllDigits(s) then Some(DigitsValue(s)) else None
  }

  /** Reads an optionally negative decimal integer. */
  function ParseInt(s: string): Option<int> {
    if |s| > 0 && s[0] == '-' then
      match ParseNat(s[1..])
      case Some(n) => Some(0 - n as int)
      case None => None
    else
      match ParseNat(s)
      case Some(n) => Some(n as int)
      case None => None
  }

  /** Printing an integer and reading it back yields the integer. */
  lemma IntRoundTrip(i: int)
    ensures ParseInt(IntToString(i)) == Some(i)
  {
    if i < 0 {
      var digits := NatToString(-i);
      assert IntToString(i)[1..] == digits;
    }
  }
}

=== FILE: merchant_list.dfy ===
/**
 * The merchant list screen of merchant-list.component.ts: the create/edit
 * form, its validation and the choice between adding and updating, loading
 * and deletion.
 *
 * The merchant and the form's draft are the ones of the movement screen.
 * The HTTP calls of the merchant service are the outcomes they delivered;
 * each transition returns the calls it made.
 */
module MerchantList {
  import opened Common
  import opened MovementForm

  /** The screen's state. */
  datatype ListState = ListState(
    merchants: seq<Merchant>,
    showForm: bool,
    loading: bool,
    message: string,
    newMerchant: MerchantDraft,
    editingMerchantId: Option<int>)

  /** What the screen asks of the merchant service. */
  datatype ListCall =
    | GetMerchants
    | AddMerchantCall(draft: MerchantDraft)
    | UpdateMerchantCall(id: int, draft: MerchantDraft)
    | DeleteMerchantCall(merchantId: int)

  const RequiredFieldsText := "Nombre, Apellido y DNI son obligatorios."
  const Added := "Comerciante agregado correctamente."
  const Updated := "Comerciante actualizado correctamente."
  const Deleted := "Comerciante eliminado correctamente."

  /** `resetFormFields()`: an empty draft and no merchant being edited. */
  function ResetFormFields(st: ListState): (r: ListState)
    ensures r.newMerchant == EmptyDraft && r.editingMerchantId.None?
    ensures r == st.(newMerchant := r.newMerchant, editingMerchantId := r.editingMerchantId)
  {
    st.(newMerchant := EmptyDraft, editingMerchantId := None)
  }

  /** `toggleForm()`: flips the form, and clears the draft when opening it outside edit mode. */
  function ToggleForm(st: ListState): (r: ListState)
    ensures r.showForm == !st.showForm
    ensures !TruthyId(st.editingMerchantId) && r.showForm ==> r.newMerchant == EmptyDraft && r.editingMerchantId.None?
    ensures !(!TruthyId(st.editingMerchantId) && r.showForm) ==> r == st.(showForm := !st.showForm)
  {
    var flipped := st.(showForm := !st.showForm);
    if !TruthyId(flipped.editingMerchantId) && flipped.showForm then ResetFormFields(flipped) else flipped
  }

  /** Closing and reopening the form keeps an edit in progress; outside edit mode reopening starts from an empty draft. */
  lemma ToggleTwice(st: ListState)
    requires st.showForm
    ensures TruthyId(st.editingMerchantId) ==> ToggleForm(ToggleForm(st)) == st
    ensures !TruthyId(st.editingMerchantId) ==> ToggleForm(ToggleForm(st)) == ResetFormFields(st)
  {
  }

  /** The form's copy of a merchant (`{ ...merchant }`), an absent name field reading as empty. */
  function DraftOf(m: Merchant): (d: MerchantDraft)
    ensures d.firstName == OrEmpty(m.firstName) && d.lastName == OrEmpty(m.lastName)
    ensures d.dni == OrEmpty(m.dni) && d.phone == OrEmpty(m.phone)
  {
    MerchantDraft(OrEmpty(m.firstName), OrEmpty(m.lastName), OrEmpty(m.dni), OrEmpty(m.phone))
  }

  /** `editMerchant(merchant)`: edit mode on its id, its fields in the form, the form shown. */
  function EditMerchant(st: ListState, m: Merchant): (r: ListState)
    ensures r.editingMerchantId == Some(m.id) && r.newMerchant == DraftOf(m) && r.showForm
    ensures r.merchants == st.merchants && r.message == st.message
  {
    st.(editingMerchantId := Some(m.id), newMerchant := DraftOf(m), showForm := true)
  }

  /** `loadMerchants()` up to the request: loading, one `getMerchants` call. */
  function StartLoad(st: ListState): (r: (ListState, seq<ListCall>))
    ensures r.0 == st.(loading := true) && r.1 == [GetMerchants]
  {
    (st.(loading := true), [GetMerchants])
  }

  /** The answer to `getMerchants()`: the list replaces the old one, or an error message is shown. */
  function MerchantsLoaded(st: ListState, outcome: Outcome<seq<Merchant>, HttpError>): (r: ListState)
    ensures !r.loading
    ensures outcome.Ok? ==> r.merchants == outcome.value && r.message == st.message
    ensures outcome.Err? ==> r.merchants == st.merchants && r.message == "Error al cargar comerciantes."
  {
    match outcome
    case Ok(ms) => st.(merchants := ms, loading := false)
    case Err(_) => st.(message := "Error al cargar comerciantes.", loading := false)
  }

  /** `saveMerchant()` (with `updateMerchant()`) updates exactly when a merchant with a truthy id is being edited. */
  predicate SaveUpdates(st: ListState) {
    TruthyId(st.editingMerchantId)
  }

  /**
   * `saveMerchant()`: an incomplete draft sets the validation message and
   * calls nothing; otherwise one update (editing a truthy id) or one add.
   * Success sets the confirmation, leaves edit mode with an empty draft and
   * reloads; failure shows the server's message or the default.
   */
  function SaveMerchant(st: ListState, outcome: Outcome<(), HttpError>): (r: (ListState, seq<ListCall>))
    ensures !DraftComplete(st.newMerchant) ==> r == (st.(message := RequiredFieldsText), [])
    ensures DraftComplete(st.newMerchant) && SaveUpdates(st) ==>
              |r.1| >= 1 && r.1[0] == UpdateMerchantCall(st.editingMerchantId.value, st.newMerchant)
    ensures DraftComplete(st.newMerchant) && !SaveUpdates(st) ==>
              |r.1| >= 1 && r.1[0] == AddMerchantCall(st.newMerchant)
    ensures DraftComplete(st.newMerchant) && outcome.Ok? ==>
              && |r.1| == 2 && r.1[1] == GetMerchants && r.0.loading
              && r.0.message == (if SaveUpdates(st) then Updated else Added)
              && r.0.newMerchant == EmptyDraft && r.0.editingMerchantId.None?
    ensures DraftComplete(st.newMerchant) && outcome.Err? ==>
              && |r.1| == 1 && r.0 == st.(message := r.0.message)
              && r.0.message == OrElse(BodyMessage(outcome.error.body),
                                       if SaveUpdates(st) then "Error al actualizar comerciante." else "Error al agregar comerciante.")
  {
    if !DraftComplete(st.newMerchant) then (st.(message := RequiredFieldsText), [])
    else
      var updating := SaveUpdates(st);
      var call := if updating then UpdateMerchantCall(st.editingMerchantId.value, st.newMerchant)
                  else AddMerchantCall(st.newMerchant);
      match outcome
      case Ok(_) =>
        var reloaded := StartLoad(ResetFormFields(st.(message := if updating then Updated else Added)));
        (reloaded.0, [call] + reloaded.1)
      case Err(e) =>
        var fallback := if updating then "Error al actualizar comerciante." else "Error al agregar comerciante.";
        (st.(message := OrElse(BodyMessage(e.body), fallback)), [call])
  }

  /** Editing a merchant with a non-zero id and saving a complete draft updates that merchant. */
  lemma EditThenSaveUpdates(st: ListState, m: Merchant, outcome: Outcome<(), HttpError>)
    requires m.id != 0 && DraftComplete(DraftOf(m))
    ensures SaveMerchant(EditMerchant(st, m), outcome).1[0] == UpdateMerchantCall(m.id, DraftOf(m))
  {
  }

  /** The merchant with id 0 is never updated: saving its edit adds a new merchant instead. */
  lemma EditIdZeroAdds(st: ListState, m: Merchant, outcome: Outcome<(), HttpError>)
    requires m.id == 0 && DraftComplete(DraftOf(m))
    ensures SaveMerchant(EditMerchant(st, m), outcome).1[0] == AddMerchantCall(DraftOf(m))
  {
  }

  /** After a successful save the screen is out of edit mode, so the next save of a new draft adds. */
  lemma SaveSuccessLeavesEditMode(st: ListState, draft: MerchantDraft, a: Outcome<(), HttpError>, b: Outcome<(), HttpError>)
    requires DraftComplete(st.newMerchant) && DraftComplete(draft) && a.Ok?
    ensures SaveMerchant(SaveMerchant(st, a).0.(newMerchant := draft), b).1[0] == AddMerchantCall(draft)
  {
  }

  /** `deleteMerchant(id)`: nothing without confirmation; otherwise one delete, then a reload or an error message. */
  function DeleteMerchant(st: ListState, id: int, confirmed: bool, outcome: Outcome<(), HttpError>)
    : (r: (ListState, seq<ListCall>))
    ensures !confirmed ==> r == (st, [])
    ensures confirmed && outcome.Ok? ==> r.1 == [DeleteMerchantCall(id), GetMerchants] && r.0.message == Deleted && r.0.loading
    ensures confirmed && outcome.Err? ==>
              r.1 == [DeleteMerchantCall(id)] && r.0 == st.(message := OrElse(BodyMessage(outcome.error.body), "Error al eliminar comerciante."))
  {
    if !confirmed then (st, [])
    else match outcome
      case Ok(_) =>
        var reloaded := StartLoad(st.(message := Deleted));
        (reloaded.0, [DeleteMerchantCall(id)] + reloaded.1)
      case Err(e) => (st.(message := OrElse(BodyMessage(e.body), "Error al eliminar comerciante.")), [DeleteMerchantCall(id)])
  }

  /**
   * A confirmed delete that succeeds is followed by exactly one reload, and
   * the confirmation survives that reload's answer; an unconfirmed one
   * changes nothing and calls nothing.
   */
  lemma DeleteThenReload(st: ListState, id: int, ms: seq<Merchant>)
    ensures DeleteMerchant(st, id, true, Ok(())).1 == [DeleteMerchantCall(id)] + StartLoad(st).1
    ensures var after := MerchantsLoaded(DeleteMerchant(st, id, true, Ok(())).0, Ok(ms));
            after.merchants == ms && after.message == Deleted && !after.loading
    ensures forall o: Outcome<(), HttpError> :: DeleteMerchant(st, id, false, o) == (st, [])
  {
  }
}

=== FILE: movement_form.dfy ===
/**
 * The movement screen of movement-form.component.ts: the merchant search and
 * its prefill of a new merchant, the default selection, the line items and
 * their total, the submit gate, the inline merchant creation, and the
 * normalisation and display of merchant names.
 *
 * Every HTTP call is the outcome it delivered; the calls a transition makes
 * are returned beside the new state. Amounts are `real`; no rounding is modelled.
 */
module MovementForm {
  import opened Common
  import opened Text
  import opened Decimal

  /** A merchant as the screen keeps it; the backend may spell the name fields several ways. */
  datatype Merchant = Merchant(
    id: int,
    name: Option<string>,
    firstName: Option<string>,
    lastName: Option<string>,
    firstNameSnake: Option<string>,   // `first_name`
    lastNameSnake: Option<string>,    // `last_name`
    lastnameLower: Option<string>,    // `lastname`
    dni: Option<string>,
    phone: Option<string>)

  /** The inline new-merchant form (`newMerchant`). */
  datatype MerchantDraft = MerchantDraft(firstName: string, lastName: string, dni: string, phone: string)

  const EmptyDraft := MerchantDraft("", "", "", "")

  /** A line item; the numeric controls may be empty (`null`). */
  datatype Item = Item(category: string, kind: string, breed: string, note: string,
                       qtyIn: Option<real>, unitPrice: Option<real>, subtotal: Option<real>)

  /** The screen's state. */
  datatype MovementState = MovementState(
    merchants: seq<Merchant>,
    selectedMerchant: Option<Merchant>,
    merchantId: Option<int>,            // form control `merchant_id`
    truckId: Option<int>,               // form control `truck_id`
    items: seq<Item>,
    total: real,
    loading: bool,
    successMessage: string,
    errorMessage: string,
    filteredMerchants: seq<Merchant>,
    searchTerm: string,                 // `merchantSearchControl`
    showMerchantDropdown: bool,
    showForm: bool,
    message: string,
    newMerchant: MerchantDraft,
    editingMerchantId: Option<int>,
    savingMerchant: bool)

  /** What the screen asks of the backend. */
  datatype MovementPayload = MovementPayload(merchantId: Option<int>, truckId: Option<int>, items: seq<Item>, total: real)
  datatype MovementCall = CreateMovement(payload: MovementPayload) | LoadMovements | AddMerchant(draft: MerchantDraft)

  /** The body of a successful `createMovement`. */
  datatype CreateReply = CreateReply(message: Option<string>)

  // ---------- sequences ----------

  /** The index of the first merchant with the given id (`merchants.find(m => m.id === id)`). */
  function FindById(ms: seq<Merchant>, id: int): (k: Option<nat>)
    ensures k.Some? ==> k.value < |ms| && ms[k.value].id == id
                        && forall j :: 0 <= j < k.value ==> ms[j].id != id
    ensures k.None? ==> forall j :: 0 <= j < |ms| ==> ms[j].id != id
    decreases |ms|
  {
    if |ms| == 0 then None
    else if ms[0].id == id then Some(0)
    else match FindById(ms[1..], id)
      case None => None
      case Some(k) => Some(k + 1)
  }

  // ---------- search ----------

  /** The text searched by name: `name`, or `firstName + ' ' + lastName`. */
  function SearchName(m: Merchant): string {
    if Truthy(m.name) then m.name.value else OrEmpty(m.firstName) + " " + OrEmpty(m.lastName)
  }

  /** The merchant's lower-cased name or DNI contains `term`. */
  predicate MatchesTerm(m: Merchant, term: string) {
    Contains(ToLower(SearchName(m)), term)
    || Contains(if Truthy(m.dni) then ToLower(m.dni.value) else "", term)
  }

  /** The merchants that match `term`, in their original order. */
  function KeepMatching(ms: seq<Merchant>, term: string): (r: seq<Merchant>)
    ensures Subsequence(r, ms)
    ensures forall k :: 0 <= k < |r| ==> MatchesTerm(r[k], term)
    ensures forall m :: m in ms && MatchesTerm(m, term) ==> m in r
    ensures forall m :: m in r ==> m in ms
    ensures forall m :: multiset(r)[m] == (if MatchesTerm(m, term) then multiset(ms)[m] else 0)
    decreases |ms|
  {
    if |ms| == 0 then []
    else
      var rest := KeepMatching(ms[1..], term);
      assert ms == [ms[0]] + ms[1..];
      if MatchesTerm(ms[0], term) then [ms[0]] + rest else rest
  }

  /** The term actually searched for: lower-cased, then trimmed. */
  function NormalizedTerm(searchTerm: string): string {
    Trim(ToLower(searchTerm))
  }

  /** `filterMerchants(searchTerm)`: nothing for an empty term, otherwise the matching merchants in order. */
  function FilterMerchants(merchants: seq<Merchant>, searchTerm: string): (r: seq<Merchant>)
    ensures searchTerm == "" ==> r == []
    ensures Subsequence(r, merchants)
    ensures forall k :: 0 <= k < |r| ==> MatchesTerm(r[k], NormalizedTerm(searchTerm))
    ensures searchTerm != "" ==> forall m :: m in merchants && MatchesTerm(m, NormalizedTerm(searchTerm)) ==> m in r
    ensures searchTerm != "" ==>
              forall m :: multiset(r)[m] == (if MatchesTerm(m, NormalizedTerm(searchTerm)) then multiset(merchants)[m] else 0)
  {
    if searchTerm == "" then [] else KeepMatching(merchants, NormalizedTerm(searchTerm))
  }

  /** A term of spaces only is not empty, so it trims to nothing and keeps every merchant. */
  lemma {:induction false} BlankTermKeepsAll(ms: seq<Merchant>)
    ensures KeepMatching(ms, "") == ms
    decreases |ms|
  {
    if |ms| > 0 {
      ContainsEmpty(ToLower(SearchName(ms[0])));
      BlankTermKeepsAll(ms[1..]);
      assert [ms[0]] + ms[1..] == ms;
    }
  }

  /**
   * `prefillNewMerchantData(searchTerm)`: with a space inside the trimmed term,
   * its last word is the last name and the words before it the first name;
   * otherwise the untrimmed term is the first name. An eight-digit term is the DNI.
   */
  function PrefillNewMerchant(draft: MerchantDraft, searchTerm: string): (r: MerchantDraft)
    ensures ' ' in Trim(searchTerm) ==>
              r.firstName + " " + r.lastName == Trim(searchTerm) && ' ' !in r.lastName && r.lastName != ""
    ensures ' ' !in Trim(searchTerm) ==> r.firstName == searchTerm && r.lastName == ""
    ensures r.dni == (if IsEightDigits(searchTerm) then searchTerm else draft.dni)
    ensures r.phone == draft.phone
  {
    var trimmed := Trim(searchTerm);
    var parts := Split(trimmed);
    SplitManyIff(trimmed);
    var named :=
      if |parts| >= 2 then
        JoinSnoc(parts);
        JoinSplit(trimmed);
        draft.(firstName := Join(parts[..|parts| - 1]), lastName := parts[|parts| - 1])
      else draft.(firstName := searchTerm, lastName := "");
    if IsEightDigits(searchTerm) then named.(dni := searchTerm) else named
  }

  /**
   * The search box's subscription: filters on every value and, when a
   * non-empty term finds nothing, prefills the new merchant from it.
   */
  function OnSearchInput(st: MovementState, value: Option<string>): (r: MovementState)
    ensures r.filteredMerchants == FilterMerchants(st.merchants, OrEmpty(value))
    ensures Truthy(value) && r.filteredMerchants == [] ==> r.newMerchant == PrefillNewMerchant(st.newMerchant, value.value)
    ensures !(Truthy(value) && r.filteredMerchants == []) ==> r.newMerchant == st.newMerchant
    ensures r.merchants == st.merchants && r.items == st.items && r.selectedMerchant == st.selectedMerchant
  {
    var filtered := FilterMerchants(st.merchants, OrEmpty(value));
    var st1 := st.(filteredMerchants := filtered);
    if Truthy(value) && |filtered| == 0 then st1.(newMerchant := PrefillNewMerchant(st1.newMerchant, value.value))
    else st1
  }

  // ---------- selection ----------

  /** `selectMerchant(merchant)`: selects it, sets `merchant_id`, clears the search, hides dropdown and form. */
  function SelectMerchant(st: MovementState, m: Merchant): (r: MovementState)
    ensures r.selectedMerchant == Some(m) && r.merchantId == Some(m.id)
    ensures r.searchTerm == "" && !r.showMerchantDropdown && !r.showForm
    ensures r == st.(selectedMerchant := r.selectedMerchant, merchantId := r.merchantId, searchTerm := r.searchTerm,
                     showMerchantDropdown := r.showMerchantDropdown, showForm := r.showForm)
  {
    st.(selectedMerchant := Some(m), merchantId := Some(m.id), searchTerm := "",
        showMerchantDropdown := false, showForm := false)
  }

  /** `clearMerchant()`: no merchant selected and `merchant_id` empty. */
  function ClearMerchant(st: MovementState): (r: MovementState)
    ensures r.selectedMerchant.None? && r.merchantId.None?
    ensures r == st.(selectedMerchant := r.selectedMerchant, merchantId := r.merchantId)
  {
    st.(selectedMerchant := None, merchantId := None)
  }

  /**
   * Selecting a merchant of the list makes the movement list show its name
   * for the chosen `merchant_id`, provided no earlier merchant shares its id.
   */
  lemma SelectShowsName(st: MovementState, k: nat)
    requires k < |st.merchants|
    requires forall j :: 0 <= j < k ==> st.merchants[j].id != st.merchants[k].id
    ensures var r := SelectMerchant(st, st.merchants[k]);
            GetMerchantName(r.merchants, r.merchantId) == DisplayName(st.merchants[k])
  {
    var r := SelectMerchant(st, st.merchants[k]);
    var found := FindById(st.merchants, st.merchants[k].id);
    assert found.Some?;
    assert found.value == k;
  }

  /** Clearing undoes a selection: the merchant and `merchant_id` go, and the list shows `Sin asignar`. */
  lemma ClearUndoesSelect(st: MovementState, m: Merchant)
    ensures ClearMerchant(SelectMerchant(st, m)).selectedMerchant == ClearMerchant(st).selectedMerchant
    ensures ClearMerchant(SelectMerchant(st, m)).merchantId == ClearMerchant(st).merchantId
    ensures var c := ClearMerchant(SelectMerchant(st, m)); GetMerchantName(c.merchants, c.merchantId) == "Sin asignar"
    ensures ClearMerchant(SelectMerchant(st, m)).merchants == st.merchants
  {
  }

  /** `selectDefaultMerchant()`: the first merchant with id 1, else the first merchant, else nothing. */
  function SelectDefaultMerchant(st: MovementState): (r: MovementState)
    ensures FindById(st.merchants, 1).Some? ==>
              r.selectedMerchant == Some(st.merchants[FindById(st.merchants, 1).value]) && r.merchantId == Some(1)
    ensures FindById(st.merchants, 1).None? && |st.merchants| > 0 ==>
              r.selectedMerchant == Some(st.merchants[0]) && r.merchantId == Some(st.merchants[0].id)
    ensures |st.merchants| == 0 ==> r == st
    ensures |st.merchants| > 0 ==> r.searchTerm == "" && !r.showForm && !r.showMerchantDropdown
    ensures r.merchants == st.merchants && r.items == st.items && r.total == st.total
  {
    match FindById(st.merchants, 1)
    case Some(k) => SelectMerchant(st, st.merchants[k])
    case None => if |st.merchants| > 0 then SelectMerchant(st, st.merchants[0]) else st
  }

  /** With merchants loaded, a merchant is always selected by default, and it is one of them. */
  lemma DefaultSelectionIsLoaded(st: MovementState)
    requires |st.merchants| > 0
    ensures SelectDefaultMerchant(st).selectedMerchant.Some?
    ensures SelectDefaultMerchant(st).selectedMerchant.value in st.merchants
    ensures SelectDefaultMerchant(st).merchantId == Some(SelectDefaultMerchant(st).selectedMerchant.value.id)
  {
  }

  // ---------- items and total ----------

  /** `item.get('subtotal')?.value || 0`. */
  function SubtotalValue(it: Item): real {
    if it.subtotal.Some? then it.subtotal.value else 0.0
  }

  /** The `reduce` of `updateTotal`: subtotals added from the first item on. */
  function Sum(items: seq<Item>): real
    decreases |items|
  {
    if |items| == 0 then 0.0 else Sum(items[..|items| - 1]) + SubtotalValue(items[|items| - 1])
  }

  /** Totals over two consecutive runs of items add up. */
  lemma {:induction false} SumConcat(a: seq<Item>, b: seq<Item>)
    ensures Sum(a + b) == Sum(a) + Sum(b)
    decreases |b|
  {
    if |b| > 0 {
      var b' := b[..|b| - 1];
      SumConcat(a, b');
      assert (a + b)[..|a + b| - 1] == a + b';
      assert (a + b)[|a + b| - 1] == b[|b| - 1];
    } else {
      assert a + b == a;
    }
  }

  /** The sum over a sequence is the first item's subtotal plus the sum over the rest. */
  lemma SumFront(items: seq<Item>)
    requires |items| > 0
    ensures Sum(items) == SubtotalValue(items[0]) + Sum(items[1..])
  {
    SumConcat([items[0]], items[1..]);
    assert [items[0]] + items[1..] == items;
    assert [items[0]][..0] == [];
  }

  /** The displayed total is the sum of the item subtotals. */
  ghost predicate TotalConsistent(st: MovementState) {
    st.total == Sum(st.items)
  }

  /** `updateTotal()`. */
  function UpdateTotal(st: MovementState): MovementState {
    st.(total := Sum(st.items))
  }

  /** The item `addItem(category)` pushes: quantity 1, price 0, subtotal 0. */
  function NewItem(category: string): Item {
    Item(category, "", "", "", Some(1.0), Some(0.0), Some(0.0))
  }

  /** `addItem(category)`: appends a fresh item; the total, already consistent, does not move. */
  function AddItem(st: MovementState, category: string): (r: MovementState)
    ensures r.items == st.items + [NewItem(category)]
    ensures TotalConsistent(r)
    ensures TotalConsistent(st) ==> r.total == st.total
  {
    var items := st.items + [NewItem(category)];
    assert items[..|items| - 1] == st.items;
    UpdateTotal(st.(items := items))
  }

  /**
   * `removeItem(i)`: drops the item at `i` (an index past the end drops
   * nothing); the total loses exactly that item's subtotal.
   */
  function RemoveItem(st: MovementState, i: nat): (r: MovementState)
    ensures i < |st.items| ==> r.items == st.items[..i] + st.items[i + 1..]
    ensures i >= |st.items| ==> r.items == st.items
    ensures TotalConsistent(r)
    ensures TotalConsistent(st) && i < |st.items| ==> r.total == st.total - SubtotalValue(st.items[i])
  {
    if i < |st.items| then
      var items := st.items[..i] + st.items[i + 1..];
      SumConcat(st.items[..i], st.items[i..]);
      SumConcat(st.items[..i], st.items[i + 1..]);
      SumFront(st.items[i..]);
      assert st.items[..i] + st.items[i..] == st.items;
      assert st.items[i..][1..] == st.items[i + 1..];
      UpdateTotal(st.(items := items))
    else UpdateTotal(st)
  }

  /** `qty_in * unit_price`, an empty control counting as 0. */
  function LineAmount(it: Item): real {
    (if it.qtyIn.Some? then it.qtyIn.value else 0.0) * (if it.unitPrice.Some? then it.unitPrice.value else 0.0)
  }

  /**
   * `updateSubtotal(i)`: the item's subtotal becomes quantity times price;
   * the total moves by the change in that subtotal and nothing else.
   */
  function UpdateSubtotal(st: MovementState, i: nat): (r: MovementState)
    requires i < |st.items|
    ensures |r.items| == |st.items| && r.items[i].subtotal == Some(LineAmount(st.items[i]))
    ensures forall j :: 0 <= j < |st.items| && j != i ==> r.items[j] == st.items[j]
    ensures TotalConsistent(r)
    ensures TotalConsistent(st) ==>
              r.total == st.total - SubtotalValue(st.items[i]) + LineAmount(st.items[i])
  {
    var updated := st.items[i].(subtotal := Some(LineAmount(st.items[i])));
    var items := st.items[i := updated];
    SumConcat(st.items[..i], st.items[i..]);
    SumConcat(items[..i], items[i..]);
    SumFront(st.items[i..]);
    SumFront(items[i..]);
    assert st.items[..i] + st.items[i..] == st.items;
    assert items[..i] + items[i..] == items;
    assert items[..i] == st.items[..i];
    assert items[i..][1..] == st.items[i..][1..];
    UpdateTotal(st.(items := items))
  }

  // ---------- submit ----------

  /** An item passes its validators: category and type required, quantity at least 1, price at least 0. */
  predicate ItemValid(it: Item) {
    && it.category != "" && it.kind != ""
    && it.qtyIn.Some? && it.qtyIn.value >= 1.0
    && it.unitPrice.Some? && it.unitPrice.value >= 0.0
  }

  /** The movement form is valid when every item is. */
  predicate FormValid(st: MovementState) {
    forall k :: 0 <= k < |st.items| ==> ItemValid(st.items[k])
  }

  /** `submit()` goes ahead: valid form, at least one item, a merchant selected. */
  predicate CanSubmit(st: MovementState) {
    FormValid(st) && |st.items| > 0 && st.selectedMerchant.Some?
  }

  const SubmitRefused := "Por favor completa todos los campos requeridos, selecciona un comerciante y agrega al menos un ítem."
  const SubmitSucceeded := "Ingreso registrado con éxito."
  const SubmitFailed := "Ocurrió un error al registrar el ingreso."

  /** `resetFormFields()`: an empty draft and no merchant being edited. */
  function ResetFormFields(st: MovementState): (r: MovementState)
    ensures r.newMerchant == EmptyDraft && r.editingMerchantId.None?
    ensures r == st.(newMerchant := r.newMerchant, editingMerchantId := r.editingMerchantId)
  {
    st.(newMerchant := EmptyDraft, editingMerchantId := None)
  }

  /** `resetForm()`: empty form and items, total 0, default merchant selected again, draft cleared. */
  function ResetForm(st: MovementState): (r: MovementState)
    ensures r.items == [] && r.total == 0.0 && TotalConsistent(r)
    ensures r.truckId.None? && r.searchTerm == "" && !r.showForm
    ensures r.newMerchant == EmptyDraft && r.editingMerchantId.None?
    ensures r.merchants == st.merchants
    ensures |st.merchants| > 0 ==> r.selectedMerchant.Some? && r.merchantId == Some(r.selectedMerchant.value.id)
  {
    var cleared := st.(merchantId := None, truckId := None, items := [], total := 0.0);
    var selected := SelectDefaultMerchant(cleared);
    ResetFormFields(selected.(searchTerm := "", showForm := false))
  }

  /**
   * `submit()`: refused with a message and no call unless `CanSubmit`;
   * otherwise one `createMovement` with the form values and the total, then
   * on success a reset and a reload, on failure an error message.
   */
  function Submit(st: MovementState, outcome: Outcome<CreateReply, HttpError>): (r: (MovementState, seq<MovementCall>))
    ensures !CanSubmit(st) ==> r.1 == [] && r.0 == st.(errorMessage := SubmitRefused, successMessage := "")
    ensures CanSubmit(st) ==>
              |r.1| >= 1 && r.1[0] == CreateMovement(MovementPayload(st.merchantId, st.truckId, st.items, st.total))
              && !r.0.loading
    ensures CanSubmit(st) && outcome.Ok? ==>
              && r.1 == [CreateMovement(MovementPayload(st.merchantId, st.truckId, st.items, st.total)), LoadMovements]
              && r.0.successMessage == OrElse(outcome.value.message, SubmitSucceeded) && r.0.errorMessage == ""
              && r.0.items == [] && r.0.total == 0.0
    ensures CanSubmit(st) && outcome.Err? ==>
              && |r.1| == 1
              && r.0.errorMessage == SubmitFailed && r.0.successMessage == ""
              && r.0.items == st.items && r.0.total == st.total
  {
    if !CanSubmit(st) then (st.(errorMessage := SubmitRefused, successMessage := ""), [])
    else
      var payload := MovementPayload(st.merchantId, st.truckId, st.items, st.total);
      var busy := st.(loading := true);
      match outcome
      case Ok(reply) =>
        var done := ResetForm(busy.(successMessage := OrElse(reply.message, SubmitSucceeded), errorMessage := ""));
        (done.(loading := false), [CreateMovement(payload), LoadMovements])
      case Err(_) =>
        (busy.(errorMessage := SubmitFailed, successMessage := "", loading := false), [CreateMovement(payload)])
  }

  // ---------- inline merchant creation ----------

  /** `toggleForm()`: flips the form, hides the dropdown, and clears the draft when opening it outside edit mode. */
  function ToggleForm(st: MovementState): (r: MovementState)
    ensures r.showForm == !st.showForm && !r.showMerchantDropdown
    ensures !TruthyId(st.editingMerchantId) && r.showForm ==> r.newMerchant == EmptyDraft && r.editingMerchantId.None?
    ensures !(!TruthyId(st.editingMerchantId) && r.showForm) ==> r.newMerchant == st.newMerchant
    ensures r.merchants == st.merchants && r.selectedMerchant == st.selectedMerchant && r.merchantId == st.merchantId
    ensures r.savingMerchant == st.savingMerchant && r.searchTerm == st.searchTerm
  {
    var flipped := st.(showForm := !st.showForm, showMerchantDropdown := false);
    if !TruthyId(flipped.editingMerchantId) && flipped.showForm then ResetFormFields(flipped) else flipped
  }

  /** The draft has a first name, a last name and a DNI. */
  predicate DraftComplete(d: MerchantDraft) {
    d.firstName != "" && d.lastName != "" && d.dni != ""
  }

  const RequiredFields := "Nombre, Apellido y DNI son obligatorios."
  const MerchantAdded := "Comerciante agregado exitosamente y seleccionado."
  const MerchantAddFailed := "Error al crear el comerciante. Verifique que el DNI no esté duplicado."

  /** The part of `saveMerchant()` both versions share: validation, the call, the failure path. */
  function SaveMerchantWith(st: MovementState, outcome: Outcome<Merchant, HttpError>, closeForm: bool)
    : (r: (MovementState, seq<MovementCall>))
    ensures !DraftComplete(st.newMerchant) ==> r.1 == [] && r.0 == st.(message := RequiredFields)
    ensures DraftComplete(st.newMerchant) ==> r.1 == [AddMerchant(st.newMerchant)] && !r.0.savingMerchant
    ensures DraftComplete(st.newMerchant) && outcome.Ok? ==>
              && r.0.merchants == st.merchants + [NormalizeMerchant(outcome.value)]
              && r.0.selectedMerchant == Some(NormalizeMerchant(outcome.value))
              && r.0.merchantId == Some(outcome.value.id)
              && r.0.successMessage == MerchantAdded
              && r.0.showForm == closeForm && !r.0.showMerchantDropdown && r.0.searchTerm == ""
    ensures DraftComplete(st.newMerchant) && outcome.Ok? && closeForm && !TruthyId(st.editingMerchantId) ==>
              r.0.newMerchant == EmptyDraft && r.0.editingMerchantId.None?
    ensures DraftComplete(st.newMerchant) && outcome.Err? ==>
              && r.0.message == OrElse(BodyMessage(outcome.error.body), MerchantAddFailed)
              && r.0.merchants == st.merchants && r.0.selectedMerchant == st.selectedMerchant
  {
    if !DraftComplete(st.newMerchant) then (st.(message := RequiredFields), [])
    else
      var busy := st.(savingMerchant := true, message := "");
      match outcome
      case Ok(created) =>
        (AdoptCreated(busy, NormalizeMerchant(created), closeForm), [AddMerchant(st.newMerchant)])
      case Err(e) =>
        (busy.(savingMerchant := false, message := OrElse(BodyMessage(e.body), MerchantAddFailed)),
         [AddMerchant(st.newMerchant)])
  }

  /** The success branch of `saveMerchant()`: the merchant is appended and selected, then the form toggled when asked. */
  function AdoptCreated(busy: MovementState, m: Merchant, closeForm: bool): (r: MovementState)
    ensures r.merchants == busy.merchants + [m] && r.selectedMerchant == Some(m) && r.merchantId == Some(m.id)
    ensures !r.savingMerchant && r.successMessage == MerchantAdded && !r.showMerchantDropdown && r.searchTerm == ""
    ensures r.showForm == closeForm
    ensures closeForm && !TruthyId(busy.editingMerchantId) ==> r.newMerchant == EmptyDraft && r.editingMerchantId.None?
  {
    var added := busy.(savingMerchant := false, merchants := busy.merchants + [m]);
    var selected := SelectMerchant(added, m);
    var after := if closeForm then ToggleForm(selected) else selected;
    after.(successMessage := MerchantAdded)
  }

  /**
   * `saveMerchant()` as written: after selecting the new merchant it calls
   * `toggleForm()` to close the form, but `selectMerchant` has already hidden
   * it, so the form comes back open (with the draft cleared outside edit mode).
   */
  function SaveMerchantAsWritten(st: MovementState, outcome: Outcome<Merchant, HttpError>): (r: (MovementState, seq<MovementCall>))
    ensures DraftComplete(st.newMerchant) && outcome.Ok? ==> r.0.showForm && !r.0.showMerchantDropdown
    ensures DraftComplete(st.newMerchant) && outcome.Ok? && !TruthyId(st.editingMerchantId) ==>
              r.0.newMerchant == EmptyDraft && r.0.editingMerchantId.None?
    ensures !DraftComplete(st.newMerchant) ==> r.1 == [] && r.0 == st.(message := RequiredFields)
  {
    SaveMerchantWith(st, outcome, true)
  }

  /**
   * `saveMerchant()` with the form closed after a successful creation, as the
   * comment before the `toggleForm()` call intends: the draft is validated,
   * one `addMerchant` is made, and on success the normalised merchant is
   * appended and selected.
   */
  function SaveMerchant(st: MovementState, outcome: Outcome<Merchant, HttpError>): (r: (MovementState, seq<MovementCall>))
    ensures !DraftComplete(st.newMerchant) ==> r.1 == [] && r.0 == st.(message := RequiredFields)
    ensures DraftComplete(st.newMerchant) ==> r.1 == [AddMerchant(st.newMerchant)] && !r.0.savingMerchant
    ensures DraftComplete(st.newMerchant) && outcome.Ok? ==>
              && r.0.merchants == st.merchants + [NormalizeMerchant(outcome.value)]
              && r.0.selectedMerchant == Some(NormalizeMerchant(outcome.value))
              && r.0.merchantId == Some(outcome.value.id)
              && !r.0.showForm && !r.0.showMerchantDropdown && r.0.searchTerm == ""
              && r.0.successMessage == MerchantAdded
    ensures DraftComplete(st.newMerchant) && outcome.Err? ==>
              && r.0.message == OrElse(BodyMessage(outcome.error.body), MerchantAddFailed)
              && r.0.merchants == st.merchants && r.0.selectedMerchant == st.selectedMerchant
  {
    SaveMerchantWith(st, outcome, false)
  }

  /**
   * The two versions make the same call and agree on the merchants and the
   * selection; on a successful creation they differ only in that the version
   * as written leaves the form open.
   */
  lemma SaveMerchantReopensFormAsWritten(st: MovementState, outcome: Outcome<Merchant, HttpError>)
    ensures SaveMerchantAsWritten(st, outcome).1 == SaveMerchant(st, outcome).1
    ensures SaveMerchantAsWritten(st, outcome).0.merchants == SaveMerchant(st, outcome).0.merchants
    ensures SaveMerchantAsWritten(st, outcome).0.selectedMerchant == SaveMerchant(st, outcome).0.selectedMerchant
    ensures DraftComplete(st.newMerchant) && outcome.Ok? ==>
              SaveMerchantAsWritten(st, outcome).0.showForm && !SaveMerchant(st, outcome).0.showForm
  {
  }

  // ---------- names ----------

  /** `firstName || first_name || ''`. */
  function FirstNameOf(m: Merchant): string {
    if Truthy(m.firstName) then m.firstName.value
    else if Truthy(m.firstNameSnake) then m.firstNameSnake.value
    else ""
  }

  /** `lastName || last_name || lastname || ''`. */
  function LastNameOf(m: Merchant): string {
    if Truthy(m.lastName) then m.lastName.value
    else if Truthy(m.lastNameSnake) then m.lastNameSnake.value
    else if Truthy(m.lastnameLower) then m.lastnameLower.value
    else ""
  }

  /** The name given to a merchant that has none and no first or last name. */
  function IdentifierName(m: Merchant): (r: string)
    ensures |r| > 0 && !IsJsWhitespace(r[0])
  {
    IdentifierText(m.id, m.dni)
  }

  /** `DNI <dni>` when the DNI is truthy, else `Comerciante <id>`. */
  function IdentifierText(id: int, dni: Option<string>): (r: string)
    ensures |r| > 0 && !IsJsWhitespace(r[0])
  {
    if Truthy(dni) then "DNI " + dni.value else "Comerciante " + IntToString(id)
  }

  /** `name` is the only name field the backend sent. */
  predicate OnlyFullName(m: Merchant) {
    Truthy(m.name) && !Truthy(m.firstName) && !Truthy(m.lastName)
  }

  /**
   * The first step of `normalizeMerchant`: when only `name` is present, its
   * trimmed words before the last become the first name (or the only word
   * does) and its last word the last name.
   */
  function SplitFullName(m: Merchant): (r: Merchant)
    ensures r == m.(firstName := r.firstName, lastName := r.lastName)
    ensures OnlyFullName(m) && Trim(m.name.value) == "" ==> r.firstName == Some("") && r.lastName == Some("")
    ensures !OnlyFullName(m) ==> r == m
  {
    if !OnlyFullName(m) then m
    else
      var parts := Split(Trim(m.name.value));
      SplitManyIff(Trim(m.name.value));
      var first := Join(parts[..|parts| - 1]);
      m.(firstName := Some(if first != "" then first else parts[0]),
         lastName := Some(if |parts| > 1 then parts[|parts| - 1] else ""))
  }

  /** The second step: an untruthy first or last name takes the first truthy snake-case spelling. */
  function FillNameParts(m: Merchant): (r: Merchant)
    ensures r == m.(firstName := r.firstName, lastName := r.lastName)
    ensures FirstNameOf(r) == FirstNameOf(m) && LastNameOf(r) == LastNameOf(m)
    ensures OrEmpty(r.firstName) == FirstNameOf(m) && (Truthy(r.firstName) <==> FirstNameOf(m) != "")
    ensures OrEmpty(r.lastName) == LastNameOf(m) && (Truthy(r.lastName) <==> LastNameOf(m) != "")
  {
    var withFirst := if !Truthy(m.firstName) && Truthy(m.firstNameSnake) then m.(firstName := m.firstNameSnake) else m;
    var withLast := if !Truthy(withFirst.lastName) && Truthy(withFirst.lastNameSnake) then withFirst.(lastName := withFirst.lastNameSnake) else withFirst;
    if !Truthy(withLast.lastName) && Truthy(withLast.lastnameLower) then withLast.(lastName := withLast.lastnameLower) else withLast
  }

  /** The last step: an untruthy `name` becomes the trimmed `first last`, else the identifier name. */
  function FillFullName(m: Merchant): (r: Merchant)
    ensures r == m.(name := r.name) && r.name.Some?
    ensures Truthy(m.name) ==> r.name == m.name
    ensures !Truthy(m.name) && (Truthy(m.firstName) || Truthy(m.lastName)) ==>
              r.name == Some(Trim(OrEmpty(m.firstName) + " " + OrEmpty(m.lastName)))
    ensures !Truthy(m.name) && !Truthy(m.firstName) && !Truthy(m.lastName) ==> r.name == Some(IdentifierName(m))
  {
    if Truthy(m.name) then m
    else if Truthy(m.firstName) || Truthy(m.lastName) then
      m.(name := Some(Trim(OrEmpty(m.firstName) + " " + OrEmpty(m.lastName))))
    else m.(name := Some(IdentifierName(m)))
  }

  /**
   * `normalizeMerchant(m)`: derives first and last name from `name` when
   * only `name` is present, falls back to the snake-case spellings, and fills
   * a missing `name` from first and last name, else the DNI, else the id.
   */
  function NormalizeMerchant(m: Merchant): (r: Merchant)
    ensures r.id == m.id && r.dni == m.dni && r.phone == m.phone
    ensures r.firstNameSnake == m.firstNameSnake && r.lastNameSnake == m.lastNameSnake && r.lastnameLower == m.lastnameLower
    ensures Truthy(m.name) ==> r.name == m.name
    ensures !Truthy(m.name) && (FirstNameOf(m) != "" || LastNameOf(m) != "") ==>
              r.name == Some(Trim(FirstNameOf(m) + " " + LastNameOf(m)))
    ensures !Truthy(m.name) && FirstNameOf(m) == "" && LastNameOf(m) == "" ==> r.name == Some(IdentifierName(m))
    ensures r.name.Some?
    ensures !(OnlyFullName(m) && Trim(m.name.value) != "") ==>
              FirstNameOf(r) == FirstNameOf(m) && LastNameOf(r) == LastNameOf(m)
  {
    var split := SplitFullName(m);
    assert !(OnlyFullName(m) && Trim(m.name.value) != "") ==>
             FirstNameOf(split) == FirstNameOf(m) && LastNameOf(split) == LastNameOf(m);
    FillFullName(FillNameParts(split))
  }

  /** A full name with a space splits into first and last name that join back to the trimmed name. */
  lemma NormalizeSplitsFullName(m: Merchant)
    requires Truthy(m.name) && !Truthy(m.firstName) && !Truthy(m.lastName)
    requires ' ' in Trim(m.name.value)
    ensures NormalizeMerchant(m).firstName.Some? && NormalizeMerchant(m).lastName.Some?
    ensures NormalizeMerchant(m).firstName.value + " " + NormalizeMerchant(m).lastName.value == Trim(m.name.value)
  {
    var t := Trim(m.name.value);
    var parts := Split(t);
    SplitManyIff(t);
    JoinSnoc(parts);
    JoinSplit(t);
  }

  /** The name the movement list shows for a merchant (the body of `getMerchantName` once found). */
  function DisplayName(m: Merchant): (r: string)
    ensures Truthy(m.name) && Trim(m.name.value) != "" ==> r == m.name.value
    ensures !(Truthy(m.name) && Trim(m.name.value) != "") && Trim(FirstNameOf(m) + " " + LastNameOf(m)) != "" ==>
              r == Trim(FirstNameOf(m) + " " + LastNameOf(m))
    ensures !(Truthy(m.name) && Trim(m.name.value) != "") && Trim(FirstNameOf(m) + " " + LastNameOf(m)) == "" ==>
              r == IdentifierName(m)
    ensures r != ""
  {
    PickName(m.name, FirstNameOf(m), LastNameOf(m), IdentifierName(m))
  }

  /** The choice `getMerchantName` makes: a name with visible text, else the trimmed `first last`, else the fallback. */
  function PickName(name: Option<string>, first: string, last: string, fallback: string): (r: string)
    ensures Truthy(name) && Trim(name.value) != "" ==> r == name.value
    ensures !(Truthy(name) && Trim(name.value) != "") && Trim(first + " " + last) != "" ==> r == Trim(first + " " + last)
    ensures !(Truthy(name) && Trim(name.value) != "") && Trim(first + " " + last) == "" ==> r == fallback
  {
    if Truthy(name) && Trim(name.value) != "" then name.value
    else
      var combined := Trim(first + " " + last);
      if combined != "" then combined else fallback
  }

  /** `getMerchantName(id)`: `'Sin asignar'` when no merchant has the id, otherwise its display name. */
  function GetMerchantName(merchants: seq<Merchant>, id: Option<int>): (r: string)
    ensures (id.None? || forall j :: 0 <= j < |merchants| ==> merchants[j].id != id.value) ==> r == "Sin asignar"
    ensures id.Some? && FindById(merchants, id.value).Some? ==>
              r == DisplayName(merchants[FindById(merchants, id.value).value])
  {
    if id.None? then "Sin asignar"
    else match FindById(merchants, id.value)
      case None => "Sin asignar"
      case Some(k) => DisplayName(merchants[k])
  }

  /** Normalising a merchant never changes the name the movement list shows for it. */
  lemma NormalizeKeepsDisplayName(m: Merchant)
    ensures DisplayName(NormalizeMerchant(m)) == DisplayName(m)
  {
    var r := NormalizeMerchant(m);
    assert IdentifierName(r) == IdentifierName(m);
    if !Truthy(m.name) {
      NormalizeFillsDisplay(m);
    }
  }

  /** A merchant without a name gets one that the list shows just as it showed the merchant before. */
  lemma NormalizeFillsDisplay(m: Merchant)
    requires !Truthy(m.name)
    ensures DisplayName(NormalizeMerchant(m)) == DisplayName(m)
  {
    var r := NormalizeMerchant(m);
    var combined := FirstNameOf(m) + " " + LastNameOf(m);
    assert IdentifierName(r) == IdentifierName(m);
    if FirstNameOf(m) != "" || LastNameOf(m) != "" {
      TrimIdempotent(combined);
    } else {
      TrimKeepsVisibleStart(IdentifierName(m));
    }
  }
}

=== FILE: profile.dfy ===
/**
 * The profile screen of profile.component.ts: a snapshot of the current
 * user taken on init, and the display label of its role.
 */
module Profile {
  import opened Common
  import opened AuthModel
  import AuthService

  /** The screen's state: the user it shows. */
  datatype ProfileState = ProfileState(currentUser: Option<User>)

  /** `ngOnInit()`: takes the auth service's current user, nothing else. */
  function Init(s: AuthService.Session): (p: ProfileState)
    ensures p.currentUser == s.currentUser
  {
    ProfileState(s.currentUser)
  }

  /** `getRoleDisplayName()`. */
  function RoleDisplayName(p: ProfileState): (shown: string)
    ensures p.currentUser.Some? && p.currentUser.value.role == AdminRole ==> shown == "Administrador"
    ensures !(p.currentUser.Some? && p.currentUser.value.role == AdminRole) ==> shown == "Personal"
  {
    if p.currentUser.Some? && p.currentUser.value.role == AdminRole then "Administrador" else "Personal"
  }

  /** The label names an administrator exactly when the service reports the `admin` role. */
  lemma LabelAgreesWithHasRole(s: AuthService.Session)
    ensures RoleDisplayName(Init(s)) == "Administrador" <==> AuthService.HasRole(s, "admin")
    ensures RoleDisplayName(Init(s)) == "Personal" <==> !AuthService.HasRole(s, "admin")
  {
  }
}

=== FILE: role_guard.dfy ===
/**
 * `RoleGuard.canActivate` of role.guard.ts: allow, or refuse with a
 * navigation to `/login` or `/unauthorized`, from the cached user and the
 * roles the route declares.
 */
module RoleGuard {
  import opened Common
  import opened AuthModel
  import AuthService

  /** The guard's answer and the navigation it starts as a side effect, if any. */
  datatype GuardDecision = GuardDecision(allow: bool, navigateTo: Option<string>)

  /**
   * `canActivate(route)`: no user goes to `/login`; a route without roles, or
   * one listing the user's role, is allowed with no navigation; anything else
   * goes to `/unauthorized`.
   */
  function CanActivate(user: Option<User>, roles: Option<seq<Role>>): (d: GuardDecision)
    ensures d.allow <==> user.Some? && (roles.None? || user.value.role in roles.value)
    ensures d.allow ==> d.navigateTo.None?
    ensures !d.allow ==> d.navigateTo == Some(if user.None? then "/login" else "/unauthorized")
  {
    match user
    case None => GuardDecision(false, Some("/login"))
    case Some(u) =>
      if roles.None? || u.role in roles.value then GuardDecision(true, None)
      else GuardDecision(false, Some("/unauthorized"))
  }

  /** The guard as the router calls it, against the service's current state. */
  function CanActivateWith(s: AuthService.Session, roles: Option<seq<Role>>): GuardDecision {
    CanActivate(s.currentUser, roles)
  }

  /** The decision reads only the cached user: storage, token and expiry play no part. */
  lemma DecisionIgnoresToken(a: AuthService.Session, b: AuthService.Session, roles: Option<seq<Role>>)
    requires a.currentUser == b.currentUser
    ensures CanActivateWith(a, roles) == CanActivateWith(b, roles)
  {
  }

  /** On a route restricted to one role, the guard allows exactly the sessions `hasRole` accepts. */
  lemma SingleRoleMatchesHasRole(s: AuthService.Session, r: Role)
    ensures CanActivateWith(s, Some([r])).allow <==> AuthService.HasRole(s, r)
  {
  }

  /** A route that declares an empty role list refuses every user. */
  lemma EmptyRolesRefuseEveryone(user: Option<User>)
    ensures !CanActivate(user, Some([])).allow
  {
  }
}

=== FILE: settings.dfy ===
/**
 * The account settings screen of settings.component.ts: the e-mail and
 * password forms with their match validators, the debug panel toggle, the
 * password change with its status-to-message mapping, and the reset.
 *
 * The password change runs `AuthService.ChangePassword`; the screen sees the
 * `ApiError` that the service rethrows. Angular's e-mail validator is the
 * predicate `isEmail`; the JSON dumps shown in the debug panel are the
 * parameters `sentReport` and `errorReport`. A control reset to `null` holds `""`.
 */
module Settings {
  import opened Common
  import opened Text
  import opened AuthModel
  import AuthService

  datatype EmailForm = EmailForm(newEmail: string, confirmEmail: string)
  datatype PasswordForm = PasswordForm(currentPassword: string, newPassword: string, confirmPassword: string)

  const BlankEmailForm := EmailForm("", "")
  const BlankPasswordForm := PasswordForm("", "", "")

  /** The screen's state; `passwordTouched` records that every password control was marked touched. */
  datatype SettingsState = SettingsState(
    currentUser: Option<User>,
    emailForm: EmailForm,
    passwordForm: PasswordForm,
    passwordTouched: bool,
    passwordLoading: bool,
    successMessage: string,
    errorMessage: string,
    debugInfo: string,
    showDebug: bool)

  /** `ngOnInit()`: the auth service's current user, everything else empty. */
  function Init(s: AuthService.Session): (st: SettingsState)
    ensures st.currentUser == s.currentUser
    ensures st.emailForm == BlankEmailForm && st.passwordForm == BlankPasswordForm
    ensures !st.showDebug && st.debugInfo == "" && !st.passwordLoading
  {
    SettingsState(s.currentUser, BlankEmailForm, BlankPasswordForm, false, false, "", "", "", false)
  }

  // ---------- validators ----------

  /** `emailMatchValidator`: reports `emailMismatch`. */
  predicate EmailMismatch(f: EmailForm) {
    f.newEmail != "" && f.confirmEmail != "" && f.newEmail != f.confirmEmail
  }

  /** `passwordMatchValidator`: reports `passwordMismatch`. */
  predicate PasswordMismatch(f: PasswordForm) {
    f.newPassword != "" && f.confirmPassword != "" && f.newPassword != f.confirmPassword
  }

  /** `emailForm.valid`: both addresses required and well formed, and no mismatch. */
  predicate EmailFormValid(f: EmailForm, isEmail: string -> bool) {
    f.newEmail != "" && isEmail(f.newEmail) && f.confirmEmail != "" && isEmail(f.confirmEmail) && !EmailMismatch(f)
  }

  /** `passwordForm.valid`: three fields required, the new password at least 6 code units long, and no mismatch. */
  predicate PasswordFormValid(f: PasswordForm) {
    f.currentPassword != "" && f.newPassword != "" && JsLength(f.newPassword) >= 6 && f.confirmPassword != ""
    && !PasswordMismatch(f)
  }

  /** The validators stay silent while either field is empty and whenever the two agree, and do not care which field is which. */
  lemma MismatchNeedsTwoDifferentValues(e: EmailForm, p: PasswordForm)
    ensures e.newEmail == "" || e.confirmEmail == "" || e.newEmail == e.confirmEmail ==> !EmailMismatch(e)
    ensures EmailMismatch(e) == EmailMismatch(EmailForm(e.confirmEmail, e.newEmail))
    ensures p.newPassword == "" || p.confirmPassword == "" || p.newPassword == p.confirmPassword ==> !PasswordMismatch(p)
    ensures PasswordMismatch(p) == PasswordMismatch(PasswordForm(p.currentPassword, p.confirmPassword, p.newPassword))
  {
  }

  /** A valid password form has a confirmation equal to the new password, which is at least 6 long. */
  lemma ValidPasswordFormConfirms(f: PasswordForm)
    requires PasswordFormValid(f)
    ensures f.confirmPassword == f.newPassword && JsLength(f.confirmPassword) >= 6 && f.currentPassword != ""
  {
  }

  /** A valid e-mail form holds the same well-formed address twice. */
  lemma ValidEmailFormConfirms(f: EmailForm, isEmail: string -> bool)
    requires EmailFormValid(f, isEmail)
    ensures f.newEmail == f.confirmEmail && isEmail(f.newEmail)
  {
  }

  // ---------- debug panel ----------

  /** `toggleDebug()`: flips the panel, emptying its text when it closes. */
  function ToggleDebug(st: SettingsState): (r: SettingsState)
    ensures r.showDebug == !st.showDebug
    ensures !r.showDebug ==> r.debugInfo == ""
    ensures r.showDebug ==> r.debugInfo == st.debugInfo
    ensures r.(showDebug := st.showDebug, debugInfo := st.debugInfo) == st
  {
    var flipped := st.(showDebug := !st.showDebug);
    if !flipped.showDebug then flipped.(debugInfo := "") else flipped
  }

  /** Toggling twice restores the panel's visibility and nothing else but its text, which one of the two toggles empties. */
  lemma ToggleDebugTwice(st: SettingsState)
    ensures ToggleDebug(ToggleDebug(st)).showDebug == st.showDebug
    ensures ToggleDebug(ToggleDebug(st)) == st.(debugInfo := "")
  {
  }

  // ---------- password change ----------

  const NotAvailable := "El servicio de cambio de contraseña no está disponible. El endpoint no existe."
  const WrongPassword := "Contraseña actual incorrecta o token inválido."
  const InvalidData := "Datos inválidos enviados al servidor."
  const ServerFailure := "Error interno del servidor. Contacta al administrador."
  const Unreachable := "No se puede conectar al servidor. Verifica que el backend esté corriendo."
  const UnknownFailure := "Error desconocido al cambiar la contraseña."
  const PasswordChanged := "Contraseña cambiada exitosamente"

  /** The statuses that get a fixed text on this screen. */
  const FixedStatuses: set<int> := {404, 401, 500, 0}

  /** The fixed text of a status in `FixedStatuses`. */
  function FixedText(status: int): string
    requires status in FixedStatuses
  {
    if status == 404 then NotAvailable
    else if status == 401 then WrongPassword
    else if status == 500 then ServerFailure
    else Unreachable
  }

  /** The default text of a status outside `FixedStatuses`. */
  function DefaultText(status: int): string {
    if status == 400 then InvalidData else UnknownFailure
  }

  /**
   * The message of the error handler as written. It reads `error.error?.message`,
   * but the error it receives is the service's `ApiError`, which has no `error`
   * member, so that read always yields `undefined`.
   */
  function ChangeErrorMessageAsWritten(error: AuthService.ApiError): (r: string)
    ensures error.status in FixedStatuses ==> r == FixedText(error.status)
    ensures error.status !in FixedStatuses ==> r == DefaultText(error.status)
  {
    if error.status in FixedStatuses then FixedText(error.status)
    else DefaultText(error.status)
  }

  /** The message of the error handler reading the server's message where it is kept, in `details`. */
  function ChangeErrorMessage(error: AuthService.ApiError): (r: string)
    ensures error.status in FixedStatuses ==> r == FixedText(error.status)
    ensures error.status !in FixedStatuses && Truthy(BodyMessage(error.details)) ==> r == BodyMessage(error.details).value
    ensures error.status !in FixedStatuses && !Truthy(BodyMessage(error.details)) ==> r == DefaultText(error.status)
    ensures r != ""
  {
    if error.status in FixedStatuses then FixedText(error.status)
    else OrElse(BodyMessage(error.details), DefaultText(error.status))
  }

  /** Both versions agree on the fixed statuses and differ exactly when the server sent a message. */
  lemma ServerMessageLostAsWritten(error: AuthService.ApiError)
    ensures error.status in FixedStatuses ==> ChangeErrorMessageAsWritten(error) == ChangeErrorMessage(error)
    ensures error.status !in FixedStatuses ==>
              (ChangeErrorMessageAsWritten(error) == ChangeErrorMessage(error) <==>
               !Truthy(BodyMessage(error.details)) || BodyMessage(error.details).value == DefaultText(error.status))
  {
  }

  /** The three messages cleared, the loader on, the debug panel filled when open. */
  function StartChange(st: SettingsState, sentReport: string): (r: SettingsState)
    ensures r.passwordLoading && r.successMessage == "" && r.errorMessage == ""
    ensures r.debugInfo == (if st.showDebug then sentReport else "")
  {
    var cleared := st.(passwordLoading := true, successMessage := "", errorMessage := "", debugInfo := "");
    if st.showDebug then cleared.(debugInfo := sentReport) else cleared
  }

  /** `onChangePassword()` with the error-to-message mapping as a parameter. */
  function ChangeWith(st: SettingsState, s: AuthService.Session, respond: AuthService.Responder,
                      sentReport: string, errorReport: string, asWritten: bool)
    : (r: (SettingsState, AuthService.Session))
    ensures !PasswordFormValid(st.passwordForm) ==> r == (st.(passwordTouched := true), s)
    ensures PasswordFormValid(st.passwordForm) ==> !r.0.passwordLoading
  {
    if !PasswordFormValid(st.passwordForm) then (st.(passwordTouched := true), s)
    else
      var busy := StartChange(st, sentReport);
      var run := AuthService.ChangePassword(s, respond);
      match run.result
      case Ok(response) =>
        (busy.(passwordLoading := false, successMessage := OrElse(Some(response.message), PasswordChanged),
               passwordForm := BlankPasswordForm, passwordTouched := false, debugInfo := ""), run.session)
      case Err(error) =>
        var shown := if asWritten then ChangeErrorMessageAsWritten(error) else ChangeErrorMessage(error);
        var debug := if busy.showDebug then busy.debugInfo + errorReport else busy.debugInfo;
        (busy.(passwordLoading := false, debugInfo := debug, errorMessage := shown), run.session)
  }

  /** `onChangePassword()` as written: a 400 or an unmapped status never shows the server's message. */
  function OnChangePasswordAsWritten(st: SettingsState, s: AuthService.Session, respond: AuthService.Responder,
                                     sentReport: string, errorReport: string)
    : (r: (SettingsState, AuthService.Session))
    ensures PasswordFormValid(st.passwordForm) && AuthService.ChangePassword(s, respond).result.Ok? ==>
              r.0.errorMessage == "" && r.0.passwordForm == BlankPasswordForm && !r.0.passwordTouched
    ensures PasswordFormValid(st.passwordForm) && AuthService.ChangePassword(s, respond).result.Err? ==>
              r.0.errorMessage == ChangeErrorMessageAsWritten(AuthService.ChangePassword(s, respond).result.error)
    ensures PasswordFormValid(st.passwordForm) && AuthService.ChangePassword(s, respond).result.Err?
            && AuthService.ChangePassword(s, respond).result.error.status !in FixedStatuses ==>
              r.0.errorMessage in {InvalidData, UnknownFailure}
    ensures !PasswordFormValid(st.passwordForm) ==> r == (st.(passwordTouched := true), s)
  {
    ChangeWith(st, s, respond, sentReport, errorReport, true)
  }

  /**
   * `onChangePassword()`: an invalid form only marks the controls touched;
   * a valid one clears the messages and runs the service's password change.
   * Success shows the response's message, else the default, empties the
   * form and the debug text and marks the controls untouched; failure shows the status's message and appends
   * the error dump to an open debug panel. The loader is off either way, and
   * the session is whatever the service left.
   */
  function OnChangePassword(st: SettingsState, s: AuthService.Session, respond: AuthService.Responder,
                            sentReport: string, errorReport: string)
    : (r: (SettingsState, AuthService.Session))
    ensures !PasswordFormValid(st.passwordForm) ==> r == (st.(passwordTouched := true), s)
    ensures PasswordFormValid(st.passwordForm) ==>
              !r.0.passwordLoading && r.1 == AuthService.ChangePassword(s, respond).session
    ensures PasswordFormValid(st.passwordForm) && AuthService.ChangePassword(s, respond).result.Ok? ==>
              && r.0.successMessage == OrElse(Some(AuthService.ChangePassword(s, respond).result.value.message), PasswordChanged)
              && r.0.errorMessage == "" && r.0.passwordForm == BlankPasswordForm && !r.0.passwordTouched
              && r.0.debugInfo == ""
    ensures PasswordFormValid(st.passwordForm) && AuthService.ChangePassword(s, respond).result.Err? ==>
              && r.0.errorMessage == ChangeErrorMessage(AuthService.ChangePassword(s, respond).result.error)
              && r.0.successMessage == "" && r.0.passwordForm == st.passwordForm
              && r.0.passwordTouched == st.passwordTouched
              && r.0.debugInfo == (if st.showDebug then sentReport + errorReport else "")
  {
    ChangeWith(st, s, respond, sentReport, errorReport, false)
  }

  /**
   * When every endpoint answers 400 with a server message, the screen as
   * written shows its default text instead, while the corrected one shows the message.
   */
  lemma BadRequestMessageAsWritten(st: SettingsState, s: AuthService.Session, sentReport: string, errorReport: string,
                                   serverMessage: string)
    requires PasswordFormValid(st.passwordForm) && serverMessage != ""
    ensures OnChangePasswordAsWritten(st, s, _ => Err(HttpError(400, ServerBody(Some(serverMessage)))),
                                      sentReport, errorReport).0.errorMessage == InvalidData
    ensures OnChangePassword(st, s, _ => Err(HttpError(400, ServerBody(Some(serverMessage)))),
                             sentReport, errorReport).0.errorMessage == serverMessage
  {
    var respond: AuthService.Responder := _ => Err(HttpError(400, ServerBody(Some(serverMessage))));
    var run := AuthService.ChangePassword(s, respond);
  }

  /** A 401 on the last endpoint ends the session and reports a wrong password. */
  lemma UnauthorizedChangeLogsOut(st: SettingsState, s: AuthService.Session, sentReport: string, errorReport: string)
    requires PasswordFormValid(st.passwordForm)
    ensures var r := OnChangePassword(st, s, _ => Err(HttpError(401, ServerBody(None))), sentReport, errorReport);
            r.0.errorMessage == WrongPassword && AuthService.Cleared(r.1)
  {
    var respond: AuthService.Responder := _ => Err(HttpError(401, ServerBody(None)));
    var run := AuthService.ChangePassword(s, respond);
  }

  /** `resetForms()`: both forms empty, no messages, no debug text. */
  function ResetForms(st: SettingsState): (r: SettingsState)
    ensures r.emailForm == BlankEmailForm && r.passwordForm == BlankPasswordForm
    ensures r.successMessage == "" && r.errorMessage == "" && r.debugInfo == ""
    ensures !r.passwordTouched
    ensures r.showDebug == st.showDebug && r.currentUser == st.currentUser && r.passwordLoading == st.passwordLoading
  {
    st.(emailForm := BlankEmailForm, passwordForm := BlankPasswordForm, passwordTouched := false,
        successMessage := "", errorMessage := "", debugInfo := "")
  }

  /**
   * A second reset changes nothing, a reset keeps the debug panel as it was
   * toggled, and a reset form is not valid, so submitting it only marks the
   * controls touched and calls nothing.
   */
  lemma ResetFormsSettles(st: SettingsState, s: AuthService.Session, respond: AuthService.Responder,
                          sentReport: string, errorReport: string)
    ensures ResetForms(ResetForms(st)) == ResetForms(st)
    ensures ResetForms(ToggleDebug(st)).showDebug == !st.showDebug
    ensures OnChangePassword(ResetForms(st), s, respond, sentReport, errorReport)
            == (ResetForms(st).(passwordTouched := true), s)
  {
  }
}

=== FILE: text.dfy ===
/**
 * The JavaScript string operations the console relies on, over `seq<char>`:
 * `trim`, `toLowerCase` (ASCII letters only), `includes`, `split(' ')` and
 * `join(' ')`, and the `/^\d{8}$/` test.
 */
module Text {

  /** The characters `String.prototype.trim` removes: WhiteSpace and LineTerminator of ECMA-262. */
  predicate IsJsWhitespace(c: char) {
    || c == '\t' || c == '\n' || c == '\U{000B}' || c == '\U{000C}' || c == '\r' || c == ' '
    || c == '\U{00A0}' || c == '\U{1680}' || ('\U{2000}' <= c <= '\U{200A}')
    || c == '\U{2028}' || c == '\U{2029}' || c == '\U{202F}' || c == '\U{205F}'
    || c == '\U{3000}' || c == '\U{FEFF}'
  }

  /** Drops leading whitespace: the result is the longest suffix not starting with whitespace. */
  function TrimStart(s: string): (r: string)
    ensures |r| <= |s| && r == s[|s| - |r|..]
    ensures forall i :: 0 <= i < |s| - |r| ==> IsJsWhitespace(s[i])
    ensures r == [] || !IsJsWhitespace(r[0])
  {
    if |s| > 0 && IsJsWhitespace(s[0]) then TrimStart(s[1..]) else s
  }

  /** Drops trailing whitespace: the result is the longest prefix not ending in whitespace. */
  function TrimEnd(s: string): (r: string)
    ensures |r| <= |s| && r == s[..|r|]
    ensures forall i :: |r| <= i < |s| ==> IsJsWhitespace(s[i])
    ensures r == [] || !IsJsWhitespace(r[|r| - 1])
  {
    if |s| > 0 && IsJsWhitespace(s[|s| - 1]) then TrimEnd(s[..|s| - 1]) else s
  }

  /** `s.trim()`. */
  function Trim(s: string): (r: string)
    ensures r == [] || (!IsJsWhitespace(r[0]) && !IsJsWhitespace(r[|r| - 1]))
    ensures |r| <= |s|
  {
    TrimEnd(TrimStart(s))
  }

  /** Trimming twice is trimming once. */
  lemma TrimIdempotent(s: string)
    ensures Trim(Trim(s)) == Trim(s)
  {
    var t := Trim(s);
    assert TrimStart(t) == t;
    assert TrimEnd(t) == t;
  }

  /** `toLowerCase` on one character; only the ASCII letters are mapped. */
  function LowerChar(c: char): char {
    if 'A' <= c <= 'Z' then (c as int + 32) as char else c
  }

  /** `s.toLowerCase()`, ASCII letters only. */
  function ToLower(s: string): (r: string)
    ensures |r| == |s|
    ensures forall i :: 0 <= i < |s| ==> r[i] == LowerChar(s[i])
  {
    seq(|s|, i requires 0 <= i < |s| => LowerChar(s[i]))
  }

  /** The UTF-16 code units of one character: two for a character beyond U+FFFF (a surrogate pair). */
  function CodeUnits(c: char): nat {
    if c as int > 0xFFFF then 2 else 1
  }

  /** `s.length`: the UTF-16 code units of `s`, not its characters. */
  function JsLength(s: string): (n: nat)
    ensures |s| <= n <= 2 * |s|
    ensures n == 0 <==> s == ""
    decreases |s|
  {
    if |s| == 0 then 0 else CodeUnits(s[0]) + JsLength(s[1..])
  }

  /** Code units add up over a concatenation. */
  lemma {:induction false} JsLengthConcat(a: string, b: string)
    ensures JsLength(a + b) == JsLength(a) + JsLength(b)
    decreases |a|
  {
    if |a| > 0 {
      assert (a + b)[1..] == a[1..] + b;
      JsLengthConcat(a[1..], b);
    } else {
      assert a + b == b;
    }
  }

  /** A text within the Basic Multilingual Plane has as many code units as characters. */
  lemma {:induction false} BmpLengthIsSize(s: string)
    requires forall i :: 0 <= i < |s| ==> s[i] as int <= 0xFFFF
    ensures JsLength(s) == |s|
    decreases |s|
  {
    if |s| > 0 {
      BmpLengthIsSize(s[1..]);
    }
  }

  /** Three emoji are six code units long, so they pass a minimum length of 6. */
  lemma ThreeEmojiAreSixUnits()
    ensures JsLength("\U{1F600}\U{1F600}\U{1F600}") == 6
  {
  }

  /** `s` starts with `p`. */
  predicate StartsWith(s: string, p: string) {
    |p| <= |s| && s[..|p|] == p
  }

  /** `s.includes(sub)`, computed by scanning `s` from the left. */
  predicate Contains(s: string, sub: string)
    decreases |s|
  {
    StartsWith(s, sub) || (|s| > 0 && Contains(s[1..], sub))
  }

  /** `sub` occurs in `s` at offset `i`. */
  ghost predicate OccursAt(s: string, sub: string, i: int) {
    0 <= i && i + |sub| <= |s| && s[i..i + |sub|] == sub
  }

  /** The scan finds `sub` exactly when `sub` occurs somewhere in `s`. */
  lemma {:induction false} ContainsIff(s: string, sub: string)
    ensures Contains(s, sub) <==> exists i :: OccursAt(s, sub, i)
    decreases |s|
  {
    if StartsWith(s, sub) {
      assert OccursAt(s, sub, 0);
    } else if |s| == 0 {
      assert |sub| > 0;
    } else {
      ContainsIff(s[1..], sub);
      if Contains(s[1..], sub) {
        var i :| OccursAt(s[1..], sub, i);
        assert s[1..][i..i + |sub|] == s[i + 1..i + 1 + |sub|];
        assert OccursAt(s, sub, i + 1);
      } else {
        forall i | 1 <= i && i + |sub| <= |s| ensures !OccursAt(s, sub, i) {
          assert s[1..][i - 1..i - 1 + |sub|] == s[i..i + |sub|];
          assert !OccursAt(s[1..], sub, i - 1);
        }
      }
    }
  }

  /** Every string contains the empty string. */
  lemma {:induction false} ContainsEmpty(s: string)
    ensures Contains(s, "")
  {
    assert StartsWith(s, "");
  }

  /** A string contains itself and any string it starts with. */
  lemma ContainsPrefix(s: string, p: string)
    requires StartsWith(s, p)
    ensures Contains(s, p)
  {
  }

  /** `s.split(' ')`: the pieces between single spaces, at least one piece. */
  function Split(s: string): (parts: seq<string>)
    ensures |parts| >= 1
    ensures forall k :: 0 <= k < |parts| ==> ' ' !in parts[k]
    decreases |s|
  {
    if |s| == 0 then [""]
    else
      var rest := Split(s[1..]);
      if s[0] == ' ' then [""] + rest
      else [[s[0]] + rest[0]] + rest[1..]
  }

  /** `parts.join(' ')`. */
  function Join(parts: seq<string>): string
    decreases |parts|
  {
    if |parts| == 0 then ""
    else if |parts| == 1 then parts[0]
    else parts[0] + " " + Join(parts[1..])
  }

  /** Joining the pieces of a split gives the original string back. */
  lemma {:induction false} JoinSplit(s: string)
    ensures Join(Split(s)) == s
    decreases |s|
  {
    if |s| > 0 {
      var rest := Split(s[1..]);
      JoinSplit(s[1..]);
      if s[0] == ' ' {
        assert Split(s) == [""] + rest;
        assert ([""] + rest)[1..] == rest;
        assert s == " " + s[1..];
      } else {
        var parts := [[s[0]] + rest[0]] + rest[1..];
        assert Split(s) == parts;
        if |rest| == 1 {
          assert Join(rest) == rest[0];
        } else {
          assert parts[1..] == rest[1..];
          assert Join(rest) == rest[0] + " " + Join(rest[1..]);
        }
        assert s == [s[0]] + s[1..];
      }
    }
  }

  /** Joining all but the last piece, then a space and the last piece, is joining them all. */
  lemma {:induction false} JoinSnoc(parts: seq<string>)
    requires |parts| >= 2
    ensures Join(parts[..|parts| - 1]) + " " + parts[|parts| - 1] == Join(parts)
    decreases |parts|
  {
    if |parts| == 2 {
      assert parts[..1] == [parts[0]];
    } else {
      var tail := parts[1..];
      JoinSnoc(tail);
      assert parts[..|parts| - 1][1..] == tail[..|tail| - 1];
      assert parts[..|parts| - 1][0] == parts[0];
    }
  }

  /** A string splits into several pieces exactly when it contains a space. */
  lemma {:induction false} SplitManyIff(s: string)
    ensures |Split(s)| >= 2 <==> ' ' in s
    ensures |Split(s)| == 1 ==> Split(s) == [s]
    decreases |s|
  {
    if |s| > 0 {
      SplitManyIff(s[1..]);
      assert s == [s[0]] + s[1..];
    }
  }

  /** A string that starts with a non-whitespace character keeps it through trimming. */
  lemma TrimKeepsVisibleStart(s: string)
    requires |s| > 0 && !IsJsWhitespace(s[0])
    ensures Trim(s) != ""
  {
    assert TrimStart(s) == s;
  }

  /** An ASCII decimal digit, as `\d` matches in a JavaScript regular expression. */
  predicate IsDigit(c: char) {
    '0' <= c <= '9'
  }

  /** `/^\d{8}$/.test(s)`: exactly eight decimal digits. */
  predicate IsEightDigits(s: string) {
    |s| == 8 && forall i :: 0 <= i < |s| ==> IsDigit(s[i])
  }
}

=== FILE: token_interceptor.dfy ===
/**
 * `tokenInterceptor` of token.interceptor.ts: every outgoing request is
 * forwarded once, with `Authorization: Bearer <token>` added when a token is
 * stored and the URL contains `/api/` anywhere.
 */
module TokenInterceptor {
  import opened Common
  import opened Text
  import AuthService

  /** The marker a URL must contain to receive the token. */
  const ApiMarker := "/api/"

  /** The interceptor attaches the token: it is non-empty and the URL contains the marker. */
  predicate Attaches(token: Option<string>, url: string) {
    Truthy(token) && Contains(url, ApiMarker)
  }

  /** The interceptor: the request it passes to the next handler. */
  function Intercept(token: Option<string>, req: Request): (forwarded: Request)
    ensures forwarded.url == req.url
    ensures Attaches(token, req.url) ==>
              forwarded.headers == req.headers["Authorization" := "Bearer " + token.value]
    ensures !Attaches(token, req.url) ==> forwarded == req
  {
    if Truthy(token) && Contains(req.url, ApiMarker) then
      Request(req.url, req.headers["Authorization" := "Bearer " + token.value])
    else req
  }

  /** The interceptor as installed: the token is whatever the auth service has stored. */
  function InterceptWith(s: AuthService.Session, req: Request): Request {
    Intercept(AuthService.GetToken(s), req)
  }

  /**
   * On a request that carries no `Authorization` header, the forwarded request
   * carries one exactly when a token is stored and the URL contains `/api/`
   * at some offset, and its value is the one `getAuthHeaders` would build.
   */
  lemma AttachIff(s: AuthService.Session, req: Request)
    requires "Authorization" !in req.headers
    ensures "Authorization" in InterceptWith(s, req).headers <==>
              AuthService.HasToken(s) && exists i :: OccursAt(req.url, ApiMarker, i)
    ensures "Authorization" in InterceptWith(s, req).headers ==>
              InterceptWith(s, req).headers["Authorization"] == AuthService.GetAuthHeaders(s)["Authorization"]
  {
    ContainsIff(req.url, ApiMarker);
  }

  /** The marker may sit anywhere: an absolute URL to the API gets the token although it does not start with `/api/`. */
  lemma AbsoluteApiUrlGetsToken(token: string)
    requires token != ""
    ensures Intercept(Some(token), Request("http://localhost:3000/api/merchants", map[])).headers
            == map["Authorization" := "Bearer " + token]
  {
    var url := "http://localhost:3000/api/merchants";
    assert OccursAt(url, ApiMarker, 21);
    ContainsIff(url, ApiMarker);
  }

  /** A request for a static asset passes unchanged even with a token stored. */
  lemma AssetRequestUnchanged(token: string, headers: map<string, string>)
    ensures Intercept(Some(token), Request("/assets/logo.png", headers)) == Request("/assets/logo.png", headers)
  {
    var url := "/assets/logo.png";
    ContainsIff(url, ApiMarker);
    forall i ensures !OccursAt(url, ApiMarker, i) {
      if 0 <= i && i + |ApiMarker| <= |url| {
        assert url[i..i + 5][0] == url[i] && url[i..i + 5][2] == url[i + 2];
        assert i in {0, 1, 2, 3, 4, 5, 6, 7, 8, 9, 10, 11};
        assert url[i] != '/' || url[i + 2] != 'p';
      }
    }
  }
}

=== FILE: user_management.dfy ===
/**
 * The user administration screen of user-management.component.ts: the role
 * counts, the create/update form with its payload rule, editing, deletion
 * and the form reset.
 *
 * The HTTP calls of the user service are the outcomes they delivered; each
 * transition returns the calls it made. Angular's e-mail validator is the
 * predicate `isEmail`. A form control reset to `null` holds `""` here.
 */
module UserManagement {
  import opened Common
  import opened Text
  import opened AuthModel
  import AuthService

  /** The values of `userForm`; `role` is the raw control value, `""` when unset. */
  datatype UserForm = UserForm(email: string, password: string, role: string)

  const BlankForm := UserForm("", "", "")

  /** The screen's state; `touched` records that every control was marked touched. */
  datatype AdminState = AdminState(
    users: seq<User>,
    currentUser: Option<User>,
    form: UserForm,
    touched: bool,
    loading: bool,
    successMessage: string,
    errorMessage: string,
    isEditing: bool,
    editingUserId: Option<int>)

  /** `UpdateUserRequest`: e-mail and role always, the password only when given. */
  datatype UpdateRequest = UpdateRequest(email: string, role: string, password: Option<string>)

  /** What the screen asks of the user service. */
  datatype UserCall =
    | GetUsers
    | CreateUser(email: string, password: string, role: string)
    | UpdateUser(id: int, data: UpdateRequest)
    | DeleteUser(userId: Option<int>)

  // ---------- counts ----------

  /** The number of users with the given role (`users.filter(u => u.role === role).length`). */
  function CountRole(users: seq<User>, role: Role): (n: nat)
    ensures n <= |users|
    ensures n == 0 <==> forall k :: 0 <= k < |users| ==> users[k].role != role
    ensures n == |users| <==> forall k :: 0 <= k < |users| ==> users[k].role == role
    decreases |users|
  {
    if |users| == 0 then 0
    else (if users[0].role == role then 1 else 0) + CountRole(users[1..], role)
  }

  /** `getAdminCount()`. */
  function AdminCount(st: AdminState): nat {
    CountRole(st.users, AdminRole)
  }

  /** `getPersonalCount()`. */
  function PersonalCount(st: AdminState): nat {
    CountRole(st.users, PersonalRole)
  }

  /**
   * The two counts never exceed the list, and add up to it exactly when every
   * user's role is `admin` or `personal`.
   */
  lemma {:induction false} CountsPartition(users: seq<User>)
    ensures CountRole(users, AdminRole) + CountRole(users, PersonalRole) <= |users|
    ensures CountRole(users, AdminRole) + CountRole(users, PersonalRole) == |users|
            <==> forall k :: 0 <= k < |users| ==> KnownRole(users[k].role)
    decreases |users|
  {
    if |users| > 0 {
      CountsPartition(users[1..]);
      assert forall k :: 1 <= k < |users| ==> users[k] == users[1..][k - 1];
      if forall k :: 0 <= k < |users[1..]| ==> KnownRole(users[1..][k].role) {
        assert forall k :: 1 <= k < |users| ==> KnownRole(users[k].role);
      }
    }
  }

  /** The screen's counts add up to the number of users shown exactly when no user holds another role. */
  lemma AdminPlusPersonalIsAll(st: AdminState)
    ensures AdminCount(st) + PersonalCount(st) <= |st.users|
    ensures AdminCount(st) + PersonalCount(st) == |st.users| <==> forall k :: 0 <= k < |st.users| ==> KnownRole(st.users[k].role)
  {
    CountsPartition(st.users);
  }

  // ---------- loading ----------

  /** `loadUsers()` up to the request: loading, one `getUsers` call. */
  function StartLoadUsers(st: AdminState): (r: (AdminState, seq<UserCall>))
    ensures r.0.loading && r.1 == [GetUsers]
    ensures r.0.users == st.users && r.0.form == st.form && r.0.successMessage == st.successMessage
  {
    (st.(loading := true), [GetUsers])
  }

  /** The answer to `getUsers()`: the list replaces the old one, or an error message is shown. */
  function UsersLoaded(st: AdminState, outcome: Outcome<seq<User>, HttpError>): (r: AdminState)
    ensures !r.loading
    ensures outcome.Ok? ==> r.users == outcome.value && r.errorMessage == st.errorMessage
    ensures outcome.Err? ==> r.users == st.users && r.errorMessage == "Error al cargar la lista de usuarios"
  {
    match outcome
    case Ok(users) => st.(users := users, loading := false)
    case Err(_) => st.(errorMessage := "Error al cargar la lista de usuarios", loading := false)
  }

  /** The state before `ngOnInit`. */
  const Fresh := AdminState([], None, BlankForm, false, false, "", "", false, None)

  /** `ngOnInit()`: takes the current user, and loads the users only for an administrator. */
  function Init(s: AuthService.Session): (r: (AdminState, seq<UserCall>))
    ensures r.0.currentUser == s.currentUser
    ensures r.1 == (if AuthService.HasRole(s, "admin") then [GetUsers] else [])
    ensures r.0.loading <==> AuthService.HasRole(s, "admin")
  {
    var st := Fresh.(currentUser := s.currentUser);
    if AuthService.HasRole(s, "admin") then StartLoadUsers(st) else (st, [])
  }

  // ---------- the form ----------

  /** `Validators.minLength(6)`: an empty value is not checked. */
  predicate PasswordLengthOk(p: string) {
    JsLength(p) == 0 || JsLength(p) >= 6
  }

  /** `userForm.valid`: e-mail required and well formed, password empty or long enough, role required. */
  predicate FormValid(f: UserForm, isEmail: string -> bool) {
    f.email != "" && isEmail(f.email) && PasswordLengthOk(f.password) && f.role != ""
  }

  /** The payload of `updateUser()`: the password only when it is non-empty and at least 6 code units long. */
  function UpdatePayload(f: UserForm): (r: UpdateRequest)
    ensures r.email == f.email && r.role == f.role
    ensures r.password.Some? <==> JsLength(f.password) >= 6
    ensures r.password.Some? ==> r.password.value == f.password
  {
    UpdateRequest(f.email, f.role, if f.password != "" && JsLength(f.password) >= 6 then Some(f.password) else None)
  }

  /** On a valid form the password goes into the update exactly when one was typed. */
  lemma ValidFormSendsTypedPassword(f: UserForm, isEmail: string -> bool)
    requires FormValid(f, isEmail)
    ensures UpdatePayload(f).password.Some? <==> f.password != ""
  {
  }

  /** A valid submit updates when editing an existing user (a truthy id); otherwise it creates. */
  predicate Updates(st: AdminState) {
    st.isEditing && TruthyId(st.editingUserId)
  }

  /** The single call a valid submit makes. */
  function SubmitCall(st: AdminState): (c: UserCall)
    ensures Updates(st) ==> c == UpdateUser(st.editingUserId.value, UpdatePayload(st.form))
    ensures !Updates(st) ==> c == CreateUser(st.form.email, st.form.password, st.form.role)
  {
    if Updates(st) then UpdateUser(st.editingUserId.value, UpdatePayload(st.form))
    else CreateUser(st.form.email, st.form.password, st.form.role)
  }

  /** `resetForm()`: empty controls, out of edit mode, no messages. */
  function ResetForm(st: AdminState): (r: AdminState)
    ensures r.form == BlankForm && !r.touched
    ensures !r.isEditing && r.editingUserId.None?
    ensures r.successMessage == "" && r.errorMessage == ""
    ensures r.users == st.users && r.currentUser == st.currentUser && r.loading == st.loading
  {
    st.(form := BlankForm, touched := false, isEditing := false, editingUserId := None,
        successMessage := "", errorMessage := "")
  }

  /** The success text of a create or an update. */
  function SuccessText(email: string, updated: bool): string {
    "Usuario " + email + (if updated then " actualizado exitosamente" else " creado exitosamente")
  }

  /** `handleError(error, action)`: the server's message, else `Error al <action> el usuario`. */
  function HandleError(st: AdminState, e: HttpError, action: string): (r: AdminState)
    ensures !r.loading
    ensures Truthy(BodyMessage(e.body)) ==> r.errorMessage == BodyMessage(e.body).value
    ensures !Truthy(BodyMessage(e.body)) ==> r.errorMessage == "Error al " + action + " el usuario"
    ensures r.form == st.form && r.isEditing == st.isEditing && r.editingUserId == st.editingUserId
  {
    st.(loading := false, errorMessage := OrElse(BodyMessage(e.body), "Error al " + action + " el usuario"))
  }

  /** `handleSuccess(message)` as written: the message is set, then `resetForm()` clears it again. */
  function HandleSuccessAsWritten(st: AdminState, message: string): (r: (AdminState, seq<UserCall>))
    ensures r.0.successMessage == "" && r.0.form == BlankForm && !r.0.isEditing
    ensures r.1 == [GetUsers] && r.0.loading
  {
    StartLoadUsers(ResetForm(st.(loading := false, successMessage := message)))
  }

  /** `handleSuccess(message)` with the message set after the reset, so that it is shown. */
  function HandleSuccess(st: AdminState, message: string): (r: (AdminState, seq<UserCall>))
    ensures r.0.successMessage == message && r.0.errorMessage == ""
    ensures r.0.form == BlankForm && !r.0.isEditing && r.0.editingUserId.None?
    ensures r.1 == [GetUsers] && r.0.loading
  {
    StartLoadUsers(ResetForm(st.(loading := false)).(successMessage := message))
  }

  /** `onSubmit()` with the success handler as a parameter. */
  function SubmitWith(st: AdminState, isEmail: string -> bool, outcome: Outcome<User, HttpError>, asWritten: bool)
    : (r: (AdminState, seq<UserCall>))
    ensures !FormValid(st.form, isEmail) ==> r.1 == [] && r.0 == st.(touched := true)
    ensures FormValid(st.form, isEmail) ==> |r.1| >= 1 && r.1[0] == SubmitCall(st)
    ensures FormValid(st.form, isEmail) && outcome.Err? ==>
              r.1 == [SubmitCall(st)] && r.0 == HandleError(st.(loading := true, successMessage := "", errorMessage := ""),
                                                          outcome.error, if Updates(st) then "actualizar" else "crear")
    ensures FormValid(st.form, isEmail) && outcome.Ok? ==>
              r.1 == [SubmitCall(st), GetUsers] && r.0.form == BlankForm && !r.0.isEditing && r.0.loading
  {
    if !FormValid(st.form, isEmail) then (st.(touched := true), [])
    else
      var busy := st.(loading := true, successMessage := "", errorMessage := "");
      var call := SubmitCall(st);
      match outcome
      case Ok(u) =>
        var text := SuccessText(u.email, Updates(st));
        var done := if asWritten then HandleSuccessAsWritten(busy, text) else HandleSuccess(busy, text);
        (done.0, [call] + done.1)
      case Err(e) => (HandleError(busy, e, if Updates(st) then "actualizar" else "crear"), [call])
  }

  /** `onSubmit()` as written: after a successful save no success message remains. */
  function OnSubmitAsWritten(st: AdminState, isEmail: string -> bool, outcome: Outcome<User, HttpError>)
    : (r: (AdminState, seq<UserCall>))
    ensures FormValid(st.form, isEmail) && outcome.Ok? ==> r.0.successMessage == "" && r.0.errorMessage == ""
    ensures !FormValid(st.form, isEmail) ==> r.1 == [] && r.0 == st.(touched := true)
  {
    SubmitWith(st, isEmail, outcome, true)
  }

  /**
   * `onSubmit()`: an invalid form only marks the controls touched; a valid
   * one clears the messages and makes one update (editing a truthy id) or one
   * create; success resets the form, shows the success text and reloads,
   * failure shows the server's message or the default.
   */
  function OnSubmit(st: AdminState, isEmail: string -> bool, outcome: Outcome<User, HttpError>)
    : (r: (AdminState, seq<UserCall>))
    ensures !FormValid(st.form, isEmail) ==> r.1 == [] && r.0 == st.(touched := true)
    ensures FormValid(st.form, isEmail) && Updates(st) ==>
              |r.1| >= 1 && r.1[0] == UpdateUser(st.editingUserId.value, UpdatePayload(st.form))
    ensures FormValid(st.form, isEmail) && !Updates(st) ==>
              |r.1| >= 1 && r.1[0] == CreateUser(st.form.email, st.form.password, st.form.role)
    ensures FormValid(st.form, isEmail) && outcome.Ok? ==>
              && r.1 == [SubmitCall(st), GetUsers]
              && r.0.successMessage == SuccessText(outcome.value.email, Updates(st)) && r.0.errorMessage == ""
              && r.0.form == BlankForm && !r.0.isEditing && r.0.editingUserId.None?
    ensures FormValid(st.form, isEmail) && outcome.Err? ==>
              && r.1 == [SubmitCall(st)] && !r.0.loading && r.0.successMessage == ""
              && r.0.form == st.form && r.0.isEditing == st.isEditing
              && r.0.errorMessage == OrElse(BodyMessage(outcome.error.body),
                                             "Error al " + (if Updates(st) then "actualizar" else "crear") + " el usuario")
  {
    SubmitWith(st, isEmail, outcome, false)
  }

  /** Editing the user with id 0 does not update it: the falsy id turns the submit into a create. */
  lemma EditingIdZeroCreates(st: AdminState, isEmail: string -> bool, outcome: Outcome<User, HttpError>)
    requires st.isEditing && st.editingUserId == Some(0) && FormValid(st.form, isEmail)
    ensures OnSubmit(st, isEmail, outcome).1[0].CreateUser?
  {
  }

  /** The two versions agree on everything but the success message. */
  lemma SubmitAsWrittenDropsMessage(st: AdminState, isEmail: string -> bool, outcome: Outcome<User, HttpError>)
    ensures OnSubmitAsWritten(st, isEmail, outcome).1 == OnSubmit(st, isEmail, outcome).1
    ensures OnSubmitAsWritten(st, isEmail, outcome).0
            == OnSubmit(st, isEmail, outcome).0.(successMessage := OnSubmitAsWritten(st, isEmail, outcome).0.successMessage)
    ensures FormValid(st.form, isEmail) && outcome.Ok? ==>
              OnSubmitAsWritten(st, isEmail, outcome).0.successMessage == "" &&
              OnSubmit(st, isEmail, outcome).0.successMessage != ""
  {
  }

  // ---------- edit and delete ----------

  /** `onEditUser(user)`: edit mode on that user's id, its e-mail and role in the form, the password empty. */
  function OnEditUser(st: AdminState, u: User): (r: AdminState)
    ensures r.isEditing && r.editingUserId == u.id
    ensures r.form == UserForm(u.email, "", u.role)
    ensures r.successMessage == "Editando usuario: " + u.email && r.errorMessage == ""
    ensures r.users == st.users
  {
    st.(isEditing := true, editingUserId := u.id, form := UserForm(u.email, "", u.role),
        successMessage := "Editando usuario: " + u.email, errorMessage := "")
  }

  /**
   * Editing a user with a non-zero id, a well-formed e-mail and a non-empty
   * role (the form requires one) and submitting updates that user.
   */
  lemma EditThenSubmitUpdates(st: AdminState, u: User, isEmail: string -> bool, outcome: Outcome<User, HttpError>)
    requires TruthyId(u.id) && isEmail(u.email) && u.email != "" && u.role != ""
    ensures OnSubmit(OnEditUser(st, u), isEmail, outcome).1[0]
            == UpdateUser(u.id.value, UpdateRequest(u.email, u.role, None))
  {
  }

  /** The users whose id differs from `id`, in their order (`users.filter(u => u.id !== id)`). */
  function RemoveById(users: seq<User>, id: Option<int>): (r: seq<User>)
    ensures Subsequence(r, users)
    ensures forall k :: 0 <= k < |r| ==> r[k].id != id
    ensures forall u :: u in users && u.id != id ==> u in r
    ensures forall u :: u in r ==> u in users
    ensures forall u :: multiset(r)[u] == (if u.id != id then multiset(users)[u] else 0)
    decreases |users|
  {
    if |users| == 0 then []
    else
      var rest := RemoveById(users[1..], id);
      assert users == [users[0]] + users[1..];
      if users[0].id != id then [users[0]] + rest else rest
  }

  /** A list without the id is left as it is, so deleting twice removes nothing more. */
  lemma {:induction false} RemoveByIdIdempotent(users: seq<User>, id: Option<int>)
    ensures RemoveById(RemoveById(users, id), id) == RemoveById(users, id)
    decreases |users|
  {
    if |users| > 0 {
      RemoveByIdIdempotent(users[1..], id);
      var rest := RemoveById(users[1..], id);
      if users[0].id != id {
        assert ([users[0]] + rest)[1..] == rest;
      }
    }
  }

  /**
   * `onDeleteUser(user)`: nothing without confirmation; otherwise one delete,
   * after which the users with that id are gone, or an error message is shown.
   */
  function OnDeleteUser(st: AdminState, u: User, confirmed: bool, outcome: Outcome<(), HttpError>)
    : (r: (AdminState, seq<UserCall>))
    ensures !confirmed ==> r == (st, [])
    ensures confirmed ==> r.1 == [DeleteUser(u.id)]
    ensures confirmed && outcome.Ok? ==>
              r.0.users == RemoveById(st.users, u.id)
              && r.0.successMessage == "Usuario \"" + u.email + "\" eliminado exitosamente"
    ensures confirmed && outcome.Err? ==>
              r.0.users == st.users && r.0.errorMessage == OrElse(BodyMessage(outcome.error.body), "Error al eliminar el usuario")
  {
    if !confirmed then (st, [])
    else match outcome
      case Ok(_) =>
        (st.(users := RemoveById(st.users, u.id), successMessage := "Usuario \"" + u.email + "\" eliminado exitosamente"),
         [DeleteUser(u.id)])
      case Err(e) =>
        (st.(errorMessage := OrElse(BodyMessage(e.body), "Error al eliminar el usuario")), [DeleteUser(u.id)])
  }
}
